=== FILE: README.md ===
# ACTabScrollView in Dafny

A model of the sequential logic inside `ACTabScrollView`. This is an iOS view that pairs a strip of tabs with a horizontally paged content area. The model covers four pieces of it:

- **The page-content cache** `CacheQueue`. It is an array of keys kept in recency order, next to a dictionary from key to view. Writing a non-nil value moves its key to the tail and writing nil removes the key, `awake` moves a present key to the tail, and `popFirst` drops the oldest key.
- **Windowed lazy loading** (`lazyLoadPages`, `insertPageAtIndex`, `realCachePageLimit`). The window is the current page and its neighbours, clipped to the pages that exist. Each window page is fetched from the data source or awoken if already cached. The oldest entries are then popped until the cache fits the effective limit.
- **Page-index resolution** (`currentPageIndex`). The content offset is shifted by half a page and divided by the page width. The quotient is truncated toward zero, as Swift's `Int(CGFloat)` does, and clamped to the existing pages.
- **The page-change and completion state machine** (`moveToIndex`, both `changePageToIndex` overloads, `scrollViewDidEndScrollingAnimation`, and the page branch of `scrollViewDidScroll`), together with the callbacks that feed it. Every entry point is a pure transition on a record of the view's fields. It returns the next record and the outward effects in the order they occur. The effects are:
  - delegate notifications;
  - the animated content scroll;
  - detached page views;
  - completion calls.

Modules, one per concern:

| file | module | models |
|---|---|---|
| `wrappers.dfy` | `Wrappers` | `Option`, for Swift optionals |
| `cache_queue.dfy` | `Caches` | `CacheQueue`, its invariant and reference definitions (`Erase`) |
| `lazy_loading.dfy` | `LazyLoading` | the effective limit, the window, insertion, eviction, `lazyLoadPages` |
| `page_index.dfy` | `PageIndex` | `currentPageIndex` over `real` |
| `offset_mapping.dfy` | `OffsetMapping` | the affine coupling of tab and content offsets while dragging |
| `tab_scroll_view.dfy` | `TabScrollView` | the view's state, its entry points, the invariant they keep |

Modelling choices:

- **Data source.** It is a page count (`nat`) plus a function `int -> Option<V>` from page to content view.
- **Delegate and completion.** Delegate calls and completion invocations become `Event`s. The completion closure is an opaque value of type `C`.
- **Offsets and widths.** Scroll offsets and the view width are `real` parameters, and the width must be positive.

## Model

| member | source | states |
|---|---|---|
| Caches.CountIsSize | Sources/ACTabScrollView.swift:415-419 | on a valid queue `count` (the key-array length) equals the number of dictionary entries, and a key has a value exactly when it is in the key order |
| Caches.Empty | Sources/ACTabScrollView.swift:415-416 | the initial queue is empty and satisfies the invariant |
| Caches.Count | Sources/ACTabScrollView.swift:417-419 | `count` is zero exactly when the key order is empty |
| Caches.Get | Sources/ACTabScrollView.swift:421-424 | the subscript getter returns a value exactly when the dictionary has the key, and then the stored value |
| Caches.Unlink | Sources/ACTabScrollView.swift:427-429 | removing the found index shortens the key order by one exactly when the key occurs in it |
| Caches.IndexOf | Sources/ACTabScrollView.swift:427 | `indexOf` finds the first occurrence of a key, and is nil exactly when the key is absent |
| Caches.UnlinkIsErase | Sources/ACTabScrollView.swift:427-429 | on a duplicate-free key order, removing the found index equals filtering the key out (reference definition `Erase`) |
| Caches.RemoveFirstIsErase | Sources/ACTabScrollView.swift:440-441 | removing the first occurrence of a present key from a duplicate-free sequence equals filtering it out |
| Caches.Assign | Sources/ACTabScrollView.swift:425-436 | after the subscript setter the getter returns the assigned value; `count` drops by one if the key was present and rises by one if the value is non-nil; a non-nil value puts the key last |
| Caches.AssignSpec | Sources/ACTabScrollView.swift:425-436 | the setter keeps the invariant, makes the key order the old order without the key plus the key at the tail when non-nil, and leaves every other key's value unchanged |
| Caches.Awake | Sources/ACTabScrollView.swift:439-444 | `awake` never touches the dictionary or `count`; it is a no-op for an absent key and puts a present key last |
| Caches.AwakeSpec | Sources/ACTabScrollView.swift:439-444 | `awake` keeps the invariant and moves a present key to the tail, the others keeping their relative order |
| Caches.AwakeIdempotent | Sources/ACTabScrollView.swift:439-444 | awaking a key twice equals awaking it once |
| Caches.PopFirst | Sources/ACTabScrollView.swift:446-453 | `popFirst` (defined only on a non-empty order, since `removeFirst` traps) drops the head key from the order and from the dictionary, keeps the rest of the order, lowers `count` by one, and returns a pair exactly when the head had a value |
| Caches.PopFirstSpec | Sources/ACTabScrollView.swift:446-453 | on a valid queue `popFirst` returns the head key with its value, keeps the invariant and leaves all other entries alone |
| Caches.RemoveAll | Sources/ACTabScrollView.swift:455-458 | `removeAll` leaves a valid queue with no entries and no keys |
| LazyLoading.RealCachePageLimit | Sources/ACTabScrollView.swift:43-51 | the effective limit is the configured one above 3, the page count below 1, and 3 otherwise; so it is never below both 3 and the page count |
| LazyLoading.ResidentWindow | Sources/ACTabScrollView.swift:370-372 | the window holds at most three pages, never more than exist, and contains the current page when it exists |
| LazyLoading.WindowMembers | Sources/ACTabScrollView.swift:370-377 | a page is loaded exactly when it exists and lies within one page of the current one |
| LazyLoading.InsertPage | Sources/ACTabScrollView.swift:399-409 | a cached page keeps its view; an uncached page gets the data source's view, or stays absent when none is supplied; no other entry changes |
| LazyLoading.LoadUpTo | Sources/ACTabScrollView.swift:375-387 | visiting pages lo to i-1 grows the cache by at most one entry per page visited, and an empty range changes nothing |
| LazyLoading.InsertPageSpec | Sources/ACTabScrollView.swift:399-409 | on a valid cache, insertion keeps the invariant and moves the page to the tail exactly when it ends up cached |
| LazyLoading.Evict | Sources/ACTabScrollView.swift:390-395 | the eviction loop ends with `count` within the limit, having popped exactly the overflow |
| LazyLoading.EvictDropsOldest | Sources/ACTabScrollView.swift:390-395 | the popped keys are exactly the oldest ones, and the rest of the order is kept |
| LazyLoading.EvictDropsEntries | Sources/ACTabScrollView.swift:390-395 | the entries removed from the dictionary are exactly those of the popped keys |
| LazyLoading.EvictValid | Sources/ACTabScrollView.swift:390-395 | eviction keeps the invariant |
| LazyLoading.LazyLoadPages | Sources/ACTabScrollView.swift:368-397 | with no pages nothing happens; otherwise the cache ends within the effective limit |
| LazyLoading.LazyLoadValid | Sources/ACTabScrollView.swift:368-397 | `lazyLoadPages` keeps the cache invariant |
| LazyLoading.LoadUpToKeys | Sources/ACTabScrollView.swift:375-387 | visiting the window in ascending order leaves the other keys in their old relative order, followed by the cached window pages |
| LazyLoading.LoadUpToValue | Sources/ACTabScrollView.swift:375-387 | the visit stores the supplied view for each uncached window page and leaves every other entry as it was |
| LazyLoading.ResidentAscending | Sources/ACTabScrollView.swift:375-387 | the cached window pages are listed in strictly ascending order |
| LazyLoading.LazyLoadEvictsOutsideWindow | Sources/ACTabScrollView.swift:368-397 | no page of the window is ever evicted |
| LazyLoading.LazyLoadWindowPage | Sources/ACTabScrollView.swift:368-409 | each window page ends up with the view it had, or else the view the data source supplies |
| LazyLoading.LazyLoadWindowIsTail | Sources/ACTabScrollView.swift:368-397 | the cached window pages form the tail of the key order, in ascending page order |
| LazyLoading.LazyLoadTailMembers | Sources/ACTabScrollView.swift:368-397 | that tail lists exactly the window pages cached afterwards |
| LazyLoading.LazyLoadAddsOnlyWindowPages | Sources/ACTabScrollView.swift:368-397 | a page outside the window that is cached afterwards holds the same view as before, so pages outside the window are never newly inserted |
| LazyLoading.LazyLoadKeyOrigin | Sources/ACTabScrollView.swift:368-397 | every key afterwards was a key before or is a window page |
| LazyLoading.LazyLoadKeepsCurrentPage | Sources/ACTabScrollView.swift:368-409 | the current page is never evicted, and is cached afterwards exactly when it was cached or the data source supplies it |
| PageIndex.Trunc | Sources/ACTabScrollView.swift:257 | `Int(CGFloat)` rounds toward zero: it is below a non-negative value by less than one and above a negative value by less than one |
| PageIndex.Clamp | Sources/ACTabScrollView.swift:258-262 | with at least one page the clamped index is an existing page, and an index already in range is kept |
| PageIndex.CurrentPageIndex | Sources/ACTabScrollView.swift:255-264 | with at least one page the result is a page that exists |
| PageIndex.TruncAgreesWithFloor | Sources/ACTabScrollView.swift:255-264 | with at least one page, truncation and floor division give the same page (reference definition `NearestPage`) |
| PageIndex.CentreBandResolves | Sources/ACTabScrollView.swift:255-264 | every offset within half a page of page i's origin resolves to page i |
| PageIndex.PageOriginResolves | Sources/ACTabScrollView.swift:255-264 | the origin `i * width` of an existing page resolves to page i |
| PageIndex.Monotonic | Sources/ACTabScrollView.swift:255-264 | with at least one page, a larger offset never resolves to an earlier page |
| PageIndex.NoPages | Sources/ACTabScrollView.swift:258-262 | with no pages the result is -1, except that offsets at least one and a half widths left of the origin give 0 |
| OffsetMapping.TabWidth | Sources/ACTabScrollView.swift:66-68 | a tab's width is its cached width, and 0 for a tab that is not cached |
| OffsetMapping.TabsWidth | Sources/ACTabScrollView.swift:177-182 | the width of the tabs before the current one is 0 for the first tab and never negative when no tab width is |
| OffsetMapping.ContentFromTab | Sources/ACTabScrollView.swift:185 | when the current tab is as wide as the view, the content moves exactly with the tab strip: both lie the same distance from the current tab's and page's left edges |
| OffsetMapping.TabFromContent | Sources/ACTabScrollView.swift:189 | when the current tab is as wide as the view, the tab strip moves exactly with the content |
| OffsetMapping.ContentRoundTrip | Sources/ACTabScrollView.swift:173-190 | mapping a content offset to the tab strip and back returns it, given a non-zero current tab width |
| OffsetMapping.TabRoundTrip | Sources/ACTabScrollView.swift:173-190 | mapping a tab offset to the content and back returns it, given a non-zero current tab width |
| TabScrollView.Initial | Sources/ACTabScrollView.swift:52-58 | a fresh view is not started, has no current or reported page, no pending completion and an empty cache |
| TabScrollView.MoveTo | Sources/ACTabScrollView.swift:346-366 | an index outside the pages changes nothing and emits nothing; otherwise the reported page becomes the index; only the active view and the reported page can change |
| TabScrollView.MoveToEvents | Sources/ACTabScrollView.swift:346-366 | `didChangePageTo` is emitted for the index exactly when it differs from the last reported page, and never for another page; the content scrolls exactly when paging is on and the content was not already active |
| TabScrollView.MoveToActive | Sources/ACTabScrollView.swift:347-357 | with paging on the content ends up active; with paging off the active view is untouched |
| TabScrollView.MoveToIdempotent | Sources/ACTabScrollView.swift:346-366 | moving to the page just moved to emits nothing and changes nothing, so repeated moves notify at most once |
| TabScrollView.ChangePage | Sources/ACTabScrollView.swift:218-221 | `changePageToIndex` (and a tab tap) changes only the active view and the reported page |
| TabScrollView.ChangePageScrolls | Sources/ACTabScrollView.swift:218-221 | with paging on, a page change to an existing page always scrolls the content to it |
| TabScrollView.ChangePageWithCompletion | Sources/ACTabScrollView.swift:223-227 | the completion overload arms the flag and stores the new completion, replacing any earlier one |
| TabScrollView.TabStripClick | Sources/ACTabScrollView.swift:134-137 | a tap on the strip moves to the current page: an existing current page counts as reported afterwards and, with paging on, the content scrolls to it; only the active view and the reported page change; it needs a current page |
| TabScrollView.EndScrollingAnimation | Sources/ACTabScrollView.swift:162-167 | the end of an animation clears the flag and keeps the stored closure; with a pending completion it runs the stored closure, if any, and nothing else; without one it emits nothing |
| TabScrollView.CompletionRunsOnce | Sources/ACTabScrollView.swift:162-167 | after a change with a completion, the end of the animation runs exactly that completion, and a second end runs nothing |
| TabScrollView.LatestCompletionWins | Sources/ACTabScrollView.swift:223-227 | of two completions armed in turn, only the second runs |
| TabScrollView.OutOfRangeCompletionStaysArmed | Sources/ACTabScrollView.swift:223-227 | a change to a page that does not exist emits nothing, yet the completion stays armed and runs at the end of the next programmatic change, whatever its page |
| TabScrollView.ScrollKeepsCompletion | Sources/ACTabScrollView.swift:170-204 | scroll callbacks during the animation do not affect which completion runs |
| TabScrollView.BeginDragging | Sources/ACTabScrollView.swift:143-147 | dragging makes the dragged view active and changes nothing else |
| TabScrollView.Settle | Sources/ACTabScrollView.swift:150-152 | the end of deceleration reports the page the content offset resolves to |
| TabScrollView.EndDragging | Sources/ACTabScrollView.swift:155-159 | the end of a drag that will decelerate does nothing |
| TabScrollView.LoadPages | Sources/ACTabScrollView.swift:368-369 | loading on the view's state changes only the cache, which ends within the effective limit, and emits at most one event, a `Detached` one |
| TabScrollView.DidScroll | Sources/ACTabScrollView.swift:194-203 | once started, reaching a new page makes it current and ends with `didScrollPageTo` for it; otherwise nothing happens; at most one `Detached` event precedes the report and no other event is emitted; only the current page and the cache change |
| TabScrollView.DidScrollIdempotent | Sources/ACTabScrollView.swift:194-203 | a second scroll callback at the same offset does nothing |
| TabScrollView.DidScrollLoadsCurrentPage | Sources/ACTabScrollView.swift:194-203 | no page view detached by the scroll is the newly reached page, and that page is cached exactly when it was cached or the data source supplies it |
| TabScrollView.SetupPages | Sources/ACTabScrollView.swift:266-279 | set-up re-reads the page count and empties the page cache, detaching every cached page view in one event (none when the cache was empty), and changes nothing else |
| TabScrollView.BeginLayout | Sources/ACTabScrollView.swift:103-108 | layout first marks the view not started |
| TabScrollView.FinishLayout | Sources/ACTabScrollView.swift:111-125 | the deferred layout block detaches every previously cached page view, starts the view at the current page, or at the default page the first time, counts it as reported, and loads the window so that the cache fits the effective limit; it emits only `Detached` events |
| TabScrollView.LayoutLoadsStartPage | Sources/ACTabScrollView.swift:117-124 | after layout the start page is cached exactly when it exists and the data source supplies its view |
| TabScrollView.StartPastLastPage | Sources/ACTabScrollView.swift:117-124 | a default page of 10 with 5 pages starts the view on page 10, which is not cached: the current page need not exist |
| TabScrollView.LayoutReportsStartPage | Sources/ACTabScrollView.swift:235-238 | after layout, selecting the start page does not notify the delegate |
| TabScrollView.Reload | Sources/ACTabScrollView.swift:210-216 | `reloadData` takes the new page count, detaches every previously cached page view, keeps the current and reported pages, and reloads the window so that the cache fits the effective limit; it emits only `Detached` events |
| TabScrollView.ReloadLoadsCurrentPage | Sources/ACTabScrollView.swift:210-216 | after `reloadData` the current page is cached exactly when it still exists and the data source supplies its view |
| TabScrollView.ReloadToFewerPages | Sources/ACTabScrollView.swift:194-216 | scrolling to page 7 of 10 and reloading to 3 pages leaves the view started on page 7, which no longer exists and is not cached |
| TabScrollView.LoadFromEmpty | Sources/ACTabScrollView.swift:368-409 | loading into an emptied cache caches the current page exactly when it exists and the data source supplies it |
| TabScrollView.LoadedPageExists | Sources/ACTabScrollView.swift:368-397 | loading into an emptied cache caches only pages that exist |
| TabScrollView.Apply | Sources/ACTabScrollView.swift:26-32 | each public setter of `cachePageLimit`, `pagingEnabled` and `defaultPage` sets its own field, changes nothing else and emits nothing, and no other entry point changes any of the three |
| TabScrollView.ApplyReportsOnlyNewPages | Sources/ACTabScrollView.swift:360-364 | no entry point reports `didChangePageTo` for the page last reported, and every report records its page as reported, so two consecutive reports never name the same page |
| TabScrollView.ScrollTrapNeedsNoPages | Sources/ACTabScrollView.swift:170-182 | a scroll callback is refused only when there are no pages and the scrolled view is the active one, the case where the loop over `0 ..< currentIndex` traps |
| TabScrollView.InitialInv | Sources/ACTabScrollView.swift:52-58 | a fresh view satisfies the invariant |
| TabScrollView.LoadPagesInv | Sources/ACTabScrollView.swift:368-397 | loading keeps a valid cache of existing pages |
| TabScrollView.ApplyInv | Sources/ACTabScrollView.swift:103-227 | every entry point, the configuration setters included, keeps the invariant: a valid cache holding only existing pages, and a current page whenever the view is started |

## Left out

- UIKit views, frames, content sizes and insets, gesture recognizers, colours, `addSubview`/`removeFromSuperview` and `stopScrolling`. These are framework effects. Page views removed by eviction or by `setupPages` appear as a `Detached` event. Stopping the running scroll is not represented.
- The `pagingEnabled` observer that copies the flag onto the content scroll view (Sources/ACTabScrollView.swift:27-31): a framework effect. The setter itself is the `PagingEnabledChanged` input.
- `dispatch_async` in `layoutSubviews`: the deferred block is a separate transition (`FinishLayout`), so any interleaving of inputs between the two halves can be expressed.
- `updateTabAppearance` and tab alpha animation: rendering only.
- The tab cache `cachedPageTabs` and the tab set-up loop in `setupPages` (Sources/ACTabScrollView.swift:280-313). `OffsetMapping` takes the tab widths as a map instead, and a missing tab has width 0 there as in the source.
- The offset loop of `initWithPageIndex` (Sources/ACTabScrollView.swift:241-251). It adds the width of tab `index` rather than of each preceding tab. The model keeps only the page bookkeeping of that function.
- OffsetMapping.ContentRoundTrip: holds only for a non-zero current tab width. The source divides by that width unguarded. With a missing tab `speed` is infinite, so `ContentFromTab` and the round trips give an infinite or NaN offset, which `real` cannot express. `TabFromContent` stays finite there (dividing by an infinite `speed` gives 0, so the tab offset is `tabsWidth - halfWidth`), but `ContentFromTab` and `TabFromContent` both keep the non-zero-width precondition, so neither covers a missing tab.
- OffsetMapping.TabRoundTrip: holds only for a non-zero current tab width, for the same reason as `ContentRoundTrip`.
- CGFloat rounding: offsets and widths are exact `real`s, while the source computes in binary64 (`CGFloat` on 64-bit devices). The following lemmas hold in exact arithmetic only.
- PageIndex.CentreBandResolves: in binary64 the sum `x + 0.5 * width` or the division can round across an integer, so an offset just below the band's upper edge may resolve to page i + 1.
- PageIndex.PageOriginResolves: exact only; in binary64 the product `i * width` may itself be rounded, so the origin resolves to page i only up to that rounding.
- OffsetMapping.ContentFromTab and OffsetMapping.TabFromContent: the equal-width translation holds exactly here; in binary64 it holds up to rounding of `speed`, and the two round trips likewise return the offset only up to rounding.
- TabScrollView.PagerInv: states no bound on the cache size between loads. The public `cachePageLimit` setter may lower the limit without evicting, so the cache fits the effective limit only right after a load, which `LoadPages` and `LazyLoadPages` state.
- TabScrollView.PagerInv: does not state that the current page exists or is cached, because the source breaks both. The deferred layout block starts at `pageIndex ?? defaultPage` without a range check (Sources/ACTabScrollView.swift:120, :234-237), and `reloadData` keeps `pageIndex` whatever the new page count (:210-216). In either case the window around a page past the last one is empty or misses it, so the current page is not cached (`StartPastLastPage`, `ReloadToFewerPages`). The model follows the source here and does not reset the current page to the default page on reload.
- TabScrollView.Reload: requires a current page when the new page count is non-zero. `lazyLoadPages` force-unwraps `pageIndex` (Sources/ACTabScrollView.swift:371), and `pageIndex` stays nil until the first layout's deferred block runs, so `reloadData` called earlier with a data source that has pages traps. The model leaves that trap out instead of modelling a crash state.
- TabScrollView.LoadPages: requires a current page when there are pages, for the same force-unwrap at Sources/ACTabScrollView.swift:371.
- TabScrollView.TabStripClick: requires a current page, because `tabSectionScrollViewDidClick` force-unwraps `pageIndex` (Sources/ACTabScrollView.swift:136). A tap on the strip before the first layout finishes traps in the source.
- TabScrollView.FinishLayout: `Enabled` refuses the deferred layout block when the new page count is non-zero and the start page (`pageIndex`, or else `defaultPage`) is negative. `initWithPageIndex` loops over `0 ..< index` (Sources/ACTabScrollView.swift:244), which traps for a negative index. Such a start page arises from a negative `defaultPage`, or from a scroll at zero pages that sets `pageIndex` to -1 before a later layout with pages.
- TabScrollView.DidScroll: `Enabled` refuses a scroll of the active view that resolves to a negative index. The offset-coupling loop over `0 ..< currentIndex` (Sources/ACTabScrollView.swift:179) traps then, which happens only with no pages, e.g. after `reloadData` to zero pages followed by a drag. A scroll of the inactive view at zero pages is modelled as the source runs it, reporting page -1.
- TabScrollView.Enabled: excludes exactly the four trapping cases above: a strip tap, or a reload with pages, while `pageIndex` is nil; a layout with pages from a negative start page; and a scroll of the active view at a negative resolved index. `Apply` and `ApplyInv` say nothing about them.
- The `animated` flag of `moveToIndex`: the source always animates the content scroll, so the flag has no effect to model.
- Integer overflow of `pageIndex ± 1` and of `Int(CGFloat)` on huge, infinite or NaN offsets. All of these trap in Swift. Integers are unbounded here, and `CurrentPageIndex` requires a positive width.
- PageIndex.Monotonic: stated only with at least one page. With no pages the two clamps cross: a quotient of -1 gives 0, and a quotient of 0 gives -1 (see `NoPages`).
- Negative page counts from the data source: `nat` is used. A negative count makes `0 ..< numberOfPages` trap in `setupPages`.
- The `Detached` event lists every popped key. The source removes a view only for keys whose entry existed. Under the cache invariant (`PagerInv`) the two coincide.
- `setupPages` removes every subview of the content scroll view; the model's `Detached` event lists the cached pages instead. Every content subview the model knows of is a cached page view, since eviction detaches the others.

=== FILE: cache_queue.dfy ===
/**
 A recency-ordered cache: an array of keys (oldest first) kept beside a
 dictionary from key to value, as in `CacheQueue<Key, Value>` of
 Sources/ACTabScrollView.swift. Writing a non-nil value moves its key to
 the tail and writing nil removes the key; `Awake` moves a present key to
 the tail, `PopFirst` drops the head.
 */
module Caches {
  import opened Wrappers

  // ---------------------------------------------------------------------------
  // Sequence helpers
  // ---------------------------------------------------------------------------

  /** No element occurs twice in `s`. */
  predicate NoDup<K(==,!new)>(s: seq<K>) {
    forall i, j :: 0 <= i < j < |s| ==> s[i] != s[j]
  }

  /** The set of elements of `s`. */
  function Elements<K>(s: seq<K>): set<K> {
    set x | x in s
  }

  /** Position of the first occurrence of `k` in `s` (Swift's `indexOf`). */
  function IndexOf<K(==,!new)>(s: seq<K>, k: K): (r: Option<nat>)
    ensures r.None? <==> k !in s
    ensures r.Some? ==> r.value < |s| && s[r.value] == k && k !in s[..r.value]
  {
    if |s| == 0 then None
    else if s[0] == k then Some(0)
    else
      match IndexOf(s[1..], k)
      case None => None
      case Some(i) =>
        assert s[..i + 1] == [s[0]] + s[1..][..i];
        Some(i + 1)
  }

  /** `s` without the element at position `i` (Swift's `removeAtIndex`). */
  function RemoveAt<K>(s: seq<K>, i: nat): (r: seq<K>)
    requires i < |s|
    ensures |r| == |s| - 1
  {
    s[..i] + s[i + 1..]
  }

  /** Reference definition: `s` with every occurrence of `k` filtered out,
      the order of the remaining elements unchanged. */
  function Erase<K(==,!new)>(s: seq<K>, k: K): (r: seq<K>)
    ensures |r| <= |s|
  {
    if |s| == 0 then []
    else (if s[0] == k then [] else [s[0]]) + Erase(s[1..], k)
  }

  /** Erasing keeps exactly the elements different from `k`. */
  lemma {:induction false} EraseMembers<K(!new)>(s: seq<K>, k: K)
    ensures forall x :: x in Erase(s, k) <==> x in s && x != k
    decreases |s|
  {
    if |s| > 0 {
      EraseMembers(s[1..], k);
      assert s == [s[0]] + s[1..];
    }
  }

  lemma {:induction false} EraseAppend<K(!new)>(a: seq<K>, b: seq<K>, k: K)
    ensures Erase(a + b, k) == Erase(a, k) + Erase(b, k)
    decreases |a|
  {
    if |a| == 0 {
      assert a + b == b;
    } else {
      var head := if a[0] == k then [] else [a[0]];
      assert (a + b)[1..] == a[1..] + b;
      assert Erase(a + b, k) == head + Erase(a[1..] + b, k);
      EraseAppend(a[1..], b, k);
      assert Erase(a, k) == head + Erase(a[1..], k);
    }
  }

  lemma {:induction false} EraseAbsent<K(!new)>(s: seq<K>, k: K)
    requires k !in s
    ensures Erase(s, k) == s
    decreases |s|
  {
    if |s| > 0 {
      assert k !in s[1..];
      EraseAbsent(s[1..], k);
      assert s == [s[0]] + s[1..];
    }
  }

  lemma NoDupAppend<K(!new)>(a: seq<K>, b: seq<K>)
    ensures NoDup(a + b) <==> NoDup(a) && NoDup(b) && (forall x :: x in a ==> x !in b)
  {
    var s := a + b;
    if NoDup(a) && NoDup(b) && (forall x :: x in a ==> x !in b) {
      forall i, j | 0 <= i < j < |s| ensures s[i] != s[j] {
        if j < |a| {
        } else if i >= |a| {
          assert s[i] == b[i - |a|] && s[j] == b[j - |a|];
        } else {
          assert s[i] in a && s[j] == b[j - |a|];
        }
      }
    }
    if NoDup(s) {
      forall i, j | 0 <= i < |a| && 0 <= j < |b| ensures a[i] != b[j] {
        assert s[i] == a[i] && s[|a| + j] == b[j];
      }
      forall i, j | 0 <= i < j < |b| ensures b[i] != b[j] {
        assert s[|a| + i] == b[i] && s[|a| + j] == b[j];
      }
      forall i, j | 0 <= i < j < |a| ensures a[i] != a[j] {
        assert s[i] == a[i] && s[j] == a[j];
      }
    }
  }

  /** Erasing preserves the absence of duplicates. */
  lemma {:induction false} EraseNoDup<K(!new)>(s: seq<K>, k: K)
    ensures NoDup(s) ==> NoDup(Erase(s, k))
    decreases |s|
  {
    if |s| > 0 && NoDup(s) {
      assert s == [s[0]] + s[1..];
      NoDupAppend([s[0]], s[1..]);
      EraseNoDup(s[1..], k);
      EraseMembers(s[1..], k);
      var head := if s[0] == k then [] else [s[0]];
      NoDupAppend(head, Erase(s[1..], k));
    }
  }

  /** On a duplicate-free sequence, removing the first occurrence of `k`
      (what the source does) is the same as filtering `k` out. */
  lemma RemoveFirstIsErase<K(!new)>(s: seq<K>, k: K)
    requires NoDup(s)
    requires k in s
    ensures IndexOf(s, k).Some?
    ensures RemoveAt(s, IndexOf(s, k).value) == Erase(s, k)
  {
    var i := IndexOf(s, k).value;
    var before, after := s[..i], s[i + 1..];
    NoDupAfter(s, i);
    assert Erase(s, k) == before + after by {
      SplitAt(s, i);
      EraseAround(before, k, after);
    }
  }

  lemma SplitAt<K>(s: seq<K>, i: nat)
    requires i < |s|
    ensures s == s[..i] + ([s[i]] + s[i + 1..])
  {
  }

  /** Filtering out a key that occurs exactly once splices it out. */
  lemma EraseAround<K(!new)>(before: seq<K>, k: K, after: seq<K>)
    requires k !in before && k !in after
    ensures Erase(before + ([k] + after), k) == before + after
  {
    assert Erase([k] + after, k) == after by {
      EraseAppend([k], after, k);
      EraseSingle(k);
      EraseAbsent(after, k);
    }
    EraseAppend(before, [k] + after, k);
    EraseAbsent(before, k);
  }

  /** In a duplicate-free sequence, the element at `i` does not occur later. */
  lemma NoDupAfter<K(!new)>(s: seq<K>, i: nat)
    requires NoDup(s)
    requires i < |s|
    ensures s[i] !in s[i + 1..]
  {
    var t := s[i + 1..];
    forall j | 0 <= j < |t| ensures t[j] != s[i] {
      assert t[j] == s[i + 1 + j];
    }
  }

  lemma EraseSingle<K(!new)>(k: K)
    ensures Erase([k], k) == []
  {
    assert [k][1..] == [];
  }

  /** A duplicate-free sequence has as many distinct elements as entries. */
  lemma {:induction false} NoDupCard<K(!new)>(s: seq<K>)
    requires NoDup(s)
    ensures |Elements(s)| == |s|
    decreases |s|
  {
    if |s| > 0 {
      assert s == [s[0]] + s[1..];
      NoDupAppend([s[0]], s[1..]);
      NoDupCard(s[1..]);
      assert Elements(s) == {s[0]} + Elements(s[1..]);
      assert s[0] !in Elements(s[1..]);
    }
  }

  // ---------------------------------------------------------------------------
  // CacheQueue
  // ---------------------------------------------------------------------------

  /** `keys` is the recency order (head = least recently written or awoken). */
  datatype CacheQueue<K(==,!new), V> = CacheQueue(keys: seq<K>, values: map<K, V>)

  /** The structure's invariant: the key order lists every key of the
      dictionary exactly once and nothing else. */
  ghost predicate Valid<K(!new), V>(q: CacheQueue<K, V>) {
    && NoDup(q.keys)
    && (forall k :: k in q.keys <==> k in q.values)
  }

  /** The empty queue (the struct's default initialiser). */
  function Empty<K(==,!new), V>(): (q: CacheQueue<K, V>)
    ensures Valid(q)
    ensures q.keys == [] && q.values == map[]
  {
    CacheQueue([], map[])
  }

  /** `count`: the length of the key order. */
  function Count<K(==,!new), V>(q: CacheQueue<K, V>): (n: nat)
    ensures n == 0 <==> q.keys == []
  {
    |q.keys|
  }

  /** Subscript getter: the dictionary lookup. */
  function Get<K(==,!new), V>(q: CacheQueue<K, V>, k: K): (r: Option<V>)
    ensures r.Some? <==> k in q.values
    ensures r.Some? ==> r.value == q.values[k]
  {
    if k in q.values then Some(q.values[k]) else None
  }

  /** Under the invariant, `count` is also the number of dictionary entries,
      and a key has a value exactly when it is in the key order. */
  lemma CountIsSize<K(!new), V>(q: CacheQueue<K, V>)
    requires Valid(q)
    ensures |q.values| == Count(q)
    ensures forall k :: Get(q, k).Some? <==> k in q.keys
  {
    NoDupCard(q.keys);
    assert q.values.Keys == Elements(q.keys);
  }

  /** `keys` with its first occurrence of `k` (if any) removed. */
  function Unlink<K(==,!new)>(keys: seq<K>, k: K): (r: seq<K>)
    ensures |r| == |keys| - (if k in keys then 1 else 0)
  {
    match IndexOf(keys, k)
    case Some(i) => RemoveAt(keys, i)
    case None => keys
  }

  /** On a duplicate-free key order, unlinking is erasing. */
  lemma UnlinkIsErase<K(!new)>(keys: seq<K>, k: K)
    requires NoDup(keys)
    ensures Unlink(keys, k) == Erase(keys, k)
  {
    if k in keys {
      RemoveFirstIsErase(keys, k);
    } else {
      EraseAbsent(keys, k);
    }
  }

  /** Subscript setter `q[k] = v`: the key leaves its old place in the order;
      a non-nil value re-appends it at the tail and stores the value, nil
      removes it from the dictionary. */
  function Assign<K(==,!new), V>(q: CacheQueue<K, V>, k: K, v: Option<V>): (r: CacheQueue<K, V>)
    ensures Get(r, k) == v
    ensures Count(r) == Count(q) - (if k in q.keys then 1 else 0) + (if v.Some? then 1 else 0)
    ensures v.Some? ==> r.keys[Count(r) - 1] == k
  {
    var keys := Unlink(q.keys, k);
    match v
    case Some(x) => CacheQueue(keys + [k], q.values[k := x])
    case None => CacheQueue(keys, q.values - {k})
  }

  /** On a valid queue, assigning keeps the invariant, moves (or adds) a
      written key to the tail and removes a cleared one, keeps the relative
      order of every other key and leaves their values alone. */
  lemma AssignSpec<K(!new), V>(q: CacheQueue<K, V>, k: K, v: Option<V>)
    requires Valid(q)
    ensures var r := Assign(q, k, v);
      && Valid(r)
      && r.keys == Erase(q.keys, k) + (if v.Some? then [k] else [])
      && (forall k' :: k' != k ==> Get(r, k') == Get(q, k'))
  {
    var e := Erase(q.keys, k);
    UnlinkIsErase(q.keys, k);
    EraseMembers(q.keys, k);
    EraseNoDup(q.keys, k);
    NoDupAppend(e, [k]);
    assert e + [] == e;
  }

  /** `awake(k)`: a present key moves to the tail; the dictionary is untouched. */
  function Awake<K(==,!new), V>(q: CacheQueue<K, V>, k: K): (r: CacheQueue<K, V>)
    ensures r.values == q.values
    ensures Count(r) == Count(q)
    ensures k !in q.keys ==> r == q
    ensures k in q.keys ==> r.keys[Count(r) - 1] == k
  {
    if k in q.keys then CacheQueue(Unlink(q.keys, k) + [k], q.values)
    else q
  }

  /** On a valid queue, awaking a present key keeps the invariant and moves
      the key to the tail, the other keys keeping their relative order. */
  lemma AwakeSpec<K(!new), V>(q: CacheQueue<K, V>, k: K)
    requires Valid(q)
    ensures var r := Awake(q, k);
      && Valid(r)
      && (k in q.keys ==> r.keys == Erase(q.keys, k) + [k])
  {
    if k in q.keys {
      var e := Erase(q.keys, k);
      UnlinkIsErase(q.keys, k);
      EraseMembers(q.keys, k);
      EraseNoDup(q.keys, k);
      NoDupAppend(e, [k]);
    }
  }

  /** `popFirst()`: removes the head key and its dictionary entry and returns
      the pair, or nil when the head key had no entry; the source's
      `removeFirst` traps on an empty order. */
  function PopFirst<K(==,!new), V>(q: CacheQueue<K, V>): (r: (CacheQueue<K, V>, Option<(K, V)>))
    requires |q.keys| > 0
    ensures r.0.keys == q.keys[1..]
    ensures Count(r.0) == Count(q) - 1
    ensures q.keys[0] !in r.0.values
    ensures r.1.Some? <==> q.keys[0] in q.values
  {
    var key := q.keys[0];
    var rest := CacheQueue(q.keys[1..], q.values - {key});
    if key in q.values then (rest, Some((key, q.values[key])))
    else (rest, None)
  }

  /** On a valid queue, `popFirst` returns the head key with its value,
      keeps the invariant, and leaves every other key and value alone. */
  lemma PopFirstSpec<K(!new), V>(q: CacheQueue<K, V>)
    requires Valid(q)
    requires |q.keys| > 0
    ensures var r := PopFirst(q);
      && Valid(r.0)
      && r.1 == Some((q.keys[0], q.values[q.keys[0]]))
      && (forall k :: k != q.keys[0] ==> Get(r.0, k) == Get(q, k))
  {
    assert q.keys == [q.keys[0]] + q.keys[1..];
    NoDupAppend([q.keys[0]], q.keys[1..]);
  }

  /** `removeAll()`: both the order and the dictionary become empty. */
  function RemoveAll<K(==,!new), V>(q: CacheQueue<K, V>): (r: CacheQueue<K, V>)
    ensures Valid(r)
    ensures Count(r) == 0
    ensures forall k :: Get(r, k) == None
  {
    Empty()
  }

  /** Awaking a key twice is the same as awaking it once. */
  lemma AwakeIdempotent<K(!new), V>(q: CacheQueue<K, V>, k: K)
    requires Valid(q)
    ensures Awake(Awake(q, k), k) == Awake(q, k)
  {
    AwakeSpec(q, k);
    if k in q.keys {
      var e := Erase(q.keys, k);
      var r := Awake(q, k);
      AwakeSpec(r, k);
      EraseAppend(e, [k], k);
      EraseMembers(q.keys, k);
      EraseAbsent(e, k);
      EraseSingle(k);
      assert e + [] == e;
    }
  }
}

=== FILE: lazy_loading.dfy ===
/**
 Windowed lazy loading of page contents (`realCachePageLimit`,
 `lazyLoadPages`, `insertPageAtIndex` of Sources/ACTabScrollView.swift).
 The pages around the current one are inserted (or awoken when already
 cached) in ascending order, then the oldest entries are popped while the
 cache is larger than the effective limit. The data source is a function
 from page index to an optional content handle.
 */
module LazyLoading {
  import opened Wrappers
  import opened Caches

  /** How many pages on each side of the current page are kept resident. */
  const LookAhead: int := 1

  /** The effective cache capacity: a configured limit above 3 is used as is,
      one below 1 means "every page", anything else is raised to 3. */
  function RealCachePageLimit(cachePageLimit: int, numberOfPages: nat): (limit: int)
    ensures cachePageLimit > 3 ==> limit == cachePageLimit
    ensures cachePageLimit < 1 ==> limit == numberOfPages
    ensures 1 <= cachePageLimit <= 3 ==> limit == 3
    ensures limit >= 3 || limit >= numberOfPages
    ensures limit >= 0
  {
    if cachePageLimit > 3 then cachePageLimit
    else if cachePageLimit < 1 then numberOfPages
    else 3
  }

  /** The inclusive bounds [lo, hi] of the resident window around `pageIndex`. */
  datatype Window = Window(lo: int, hi: int) {
    predicate Contains(i: int) { lo <= i <= hi }
    function Size(): nat { if hi < lo then 0 else hi - lo + 1 }
  }

  /** The window the source computes: one page either side of the current
      one, clipped to the pages that exist. */
  function ResidentWindow(pageIndex: int, numberOfPages: nat): (w: Window)
    ensures w.Size() <= 2 * LookAhead + 1
    ensures w.Size() <= numberOfPages
    ensures 0 <= pageIndex < numberOfPages ==> w.Contains(pageIndex)
  {
    var lo := if pageIndex - LookAhead > 0 then pageIndex - LookAhead else 0;
    var hi := if pageIndex + LookAhead < numberOfPages then pageIndex + LookAhead else numberOfPages - 1;
    Window(lo, hi)
  }

  /** A page is in the window exactly when it exists and lies within
      `LookAhead` of the current page. */
  lemma WindowMembers(pageIndex: int, numberOfPages: nat, i: int)
    ensures ResidentWindow(pageIndex, numberOfPages).Contains(i)
            <==> 0 <= i < numberOfPages && pageIndex - LookAhead <= i <= pageIndex + LookAhead
  {
  }

  /** `insertPageAtIndex`: an uncached page is fetched from the data source
      and stored when it supplies content; a cached page is awoken. Only the
      entry of page `i` can change. */
  function InsertPage<V>(q: CacheQueue<int, V>, i: int, content: int -> Option<V>): (r: CacheQueue<int, V>)
    ensures Get(r, i) == if i in q.values then Get(q, i) else content(i)
    ensures r.values == if i in q.values || content(i).None? then q.values else q.values[i := content(i).value]
    ensures Count(r) <= Count(q) + 1
  {
    if Get(q, i).None? then
      match content(i)
      case Some(view) => Assign(q, i, Some(view))
      case None => q
    else
      Awake(q, i)
  }

  /** On a valid cache, inserting keeps the invariant and moves page `i` to
      the tail when it ends up cached; otherwise the key order is unchanged. */
  lemma InsertPageSpec<V>(q: CacheQueue<int, V>, i: int, content: int -> Option<V>)
    requires Valid(q)
    ensures var r := InsertPage(q, i, content);
      && Valid(r)
      && r.keys == if i in q.values || content(i).Some? then Erase(q.keys, i) + [i] else q.keys
  {
    if i !in q.values {
      if content(i).Some? {
        AssignSpec(q, i, content(i));
      }
    } else {
      AwakeSpec(q, i);
    }
  }

  /** The cache after visiting the pages lo, lo+1, ..., i-1 in that order. */
  function LoadUpTo<V>(q: CacheQueue<int, V>, lo: int, i: int, content: int -> Option<V>): (r: CacheQueue<int, V>)
    ensures i <= lo ==> r == q
    ensures Count(r) <= Count(q) + (if i <= lo then 0 else i - lo)
    decreases i - lo
  {
    if i <= lo then q else InsertPage(LoadUpTo(q, lo, i - 1, content), i - 1, content)
  }

  /** How many entries a cache of `count` entries must lose to fit `limit`. */
  function Overflow(count: nat, limit: int): nat {
    if count > limit then count - limit else 0
  }

  /** The eviction loop `while count > limit { popFirst() }`: returns the
      cache and the popped keys, whose views the source detaches. */
  function Evict<K(==,!new), V>(q: CacheQueue<K, V>, limit: int): (r: (CacheQueue<K, V>, seq<K>))
    requires limit >= 0
    ensures Count(r.0) <= limit
    ensures |r.1| == Overflow(Count(q), limit)
    decreases |q.keys|
  {
    if Count(q) <= limit then (q, [])
    else
      var rest := Evict(PopFirst(q).0, limit);
      (rest.0, [q.keys[0]] + rest.1)
  }

  /** Eviction pops exactly the oldest `Overflow` keys. */
  lemma {:induction false} EvictDropsOldest<K(!new), V>(q: CacheQueue<K, V>, limit: int)
    requires limit >= 0
    ensures var d := Overflow(|q.keys|, limit);
      var r := Evict(q, limit);
      r.1 == q.keys[..d] && r.0.keys == q.keys[d..]
    decreases |q.keys|
  {
    if |q.keys| > limit {
      EvictDropsOldest(PopFirst(q).0, limit);
      var d := Overflow(|q.keys|, limit);
      assert q.keys[1..][..d - 1] == q.keys[1..d];
      assert q.keys[1..][d - 1..] == q.keys[d..];
      assert q.keys[..d] == [q.keys[0]] + q.keys[1..d];
    }
  }

  /** Eviction removes the entries of exactly the popped keys. */
  lemma {:induction false} EvictDropsEntries<K(!new), V>(q: CacheQueue<K, V>, limit: int)
    requires limit >= 0
    ensures var r := Evict(q, limit);
      r.0.values == q.values - Elements(r.1)
    decreases |q.keys|
  {
    if |q.keys| > limit {
      var p := PopFirst(q).0;
      EvictDropsEntries(p, limit);
      var popped := Evict(p, limit).1;
      assert Elements([q.keys[0]] + popped) == {q.keys[0]} + Elements(popped);
    }
  }

  /** Eviction keeps the cache invariant. */
  lemma {:induction false} EvictValid<K(!new), V>(q: CacheQueue<K, V>, limit: int)
    requires limit >= 0
    requires Valid(q)
    ensures Valid(Evict(q, limit).0)
    decreases |q.keys|
  {
    if |q.keys| > limit {
      PopFirstSpec(q);
      EvictValid(PopFirst(q).0, limit);
    }
  }

  /** `lazyLoadPages`: with at least one page, load the window around
      `pageIndex` and then evict down to the effective limit; returns the
      new cache and the evicted pages. With no pages nothing happens. */
  function LazyLoadPages<V>(q: CacheQueue<int, V>, numberOfPages: nat, pageIndex: int,
                            cachePageLimit: int, content: int -> Option<V>): (r: (CacheQueue<int, V>, seq<int>))
    ensures numberOfPages == 0 ==> r == (q, [])
    ensures numberOfPages > 0 ==> Count(r.0) <= RealCachePageLimit(cachePageLimit, numberOfPages)
  {
    if numberOfPages == 0 then (q, [])
    else
      var w := ResidentWindow(pageIndex, numberOfPages);
      Evict(LoadUpTo(q, w.lo, w.hi + 1, content), RealCachePageLimit(cachePageLimit, numberOfPages))
  }

  lemma {:induction false} LoadUpToValid<V>(q: CacheQueue<int, V>, lo: int, i: int, content: int -> Option<V>)
    requires Valid(q)
    ensures Valid(LoadUpTo(q, lo, i, content))
    decreases i - lo
  {
    if i > lo {
      LoadUpToValid(q, lo, i - 1, content);
      InsertPageSpec(LoadUpTo(q, lo, i - 1, content), i - 1, content);
    }
  }

  /** `lazyLoadPages` keeps the cache invariant. */
  lemma LazyLoadValid<V>(q: CacheQueue<int, V>, numberOfPages: nat, pageIndex: int,
                         cachePageLimit: int, content: int -> Option<V>)
    requires Valid(q)
    ensures Valid(LazyLoadPages(q, numberOfPages, pageIndex, cachePageLimit, content).0)
  {
    if numberOfPages > 0 {
      var w := ResidentWindow(pageIndex, numberOfPages);
      LoadUpToValid(q, w.lo, w.hi + 1, content);
      EvictValid(LoadUpTo(q, w.lo, w.hi + 1, content), RealCachePageLimit(cachePageLimit, numberOfPages));
    }
  }

  // ---------------------------------------------------------------------------
  // Shape of the key order after loading a window
  // ---------------------------------------------------------------------------

  /** The keys of `s` that lie outside [lo, hi), in their original order. */
  function Outside(s: seq<int>, lo: int, hi: int): (r: seq<int>)
    ensures |r| <= |s|
  {
    if |s| == 0 then []
    else (if lo <= s[0] < hi then [] else [s[0]]) + Outside(s[1..], lo, hi)
  }

  lemma {:induction false} OutsideMember(s: seq<int>, lo: int, hi: int, x: int)
    ensures x in Outside(s, lo, hi) <==> x in s && !(lo <= x < hi)
    decreases |s|
  {
    if |s| > 0 {
      OutsideMember(s[1..], lo, hi, x);
      assert s == [s[0]] + s[1..];
    }
  }

  /** Reference definition: the pages of [lo, i) that end up cached when they
      are visited in ascending order — those already cached and those the
      data source supplies — in ascending order. */
  function Resident<V>(q: CacheQueue<int, V>, lo: int, i: int, content: int -> Option<V>): (r: seq<int>)
    ensures |r| <= if i < lo then 0 else i - lo
    decreases i - lo
  {
    if i <= lo then []
    else Resident(q, lo, i - 1, content) + (if i - 1 in q.values || content(i - 1).Some? then [i - 1] else [])
  }

  lemma {:induction false} ResidentMember<V>(q: CacheQueue<int, V>, lo: int, i: int, content: int -> Option<V>, x: int)
    ensures x in Resident(q, lo, i, content) <==> lo <= x < i && (x in q.values || content(x).Some?)
    decreases i - lo
  {
    if i > lo {
      ResidentMember(q, lo, i - 1, content, x);
    }
  }

  /** `t` is a suffix of `s`. */
  predicate IsSuffix(t: seq<int>, s: seq<int>) {
    |t| <= |s| && s[|s| - |t|..] == t
  }

  /** Strictly ascending. */
  predicate Ascending(s: seq<int>) {
    forall a, b :: 0 <= a < b < |s| ==> s[a] < s[b]
  }

  /** The resident pages are listed in strictly ascending order. */
  lemma {:induction false} ResidentAscending<V>(q: CacheQueue<int, V>, lo: int, i: int, content: int -> Option<V>)
    ensures Ascending(Resident(q, lo, i, content))
    decreases i - lo
  {
    if i > lo {
      ResidentAscending(q, lo, i - 1, content);
      var prev := Resident(q, lo, i - 1, content);
      var r := Resident(q, lo, i, content);
      forall a, b | 0 <= a < b < |r| ensures r[a] < r[b] {
        assert r[a] == prev[a];
        if b < |prev| {
          assert r[b] == prev[b];
        } else {
          ResidentMember(q, lo, i - 1, content, prev[a]);
          assert r[b] == i - 1;
        }
      }
    }
  }

  lemma {:induction false} OutsideStep(s: seq<int>, lo: int, m: int)
    requires lo <= m
    ensures Erase(Outside(s, lo, m), m) == Outside(s, lo, m + 1)
    decreases |s|
  {
    if |s| > 0 {
      var head := if lo <= s[0] < m then [] else [s[0]];
      EraseAppend(head, Outside(s[1..], lo, m), m);
      OutsideStep(s[1..], lo, m);
    }
  }

  /** Loading the pages lo .. i-1 stores the supplied content of each of
      those pages not cached before and leaves every other entry alone. */
  lemma {:induction false} LoadUpToValue<V>(q: CacheQueue<int, V>, lo: int, i: int, content: int -> Option<V>, j: int)
    ensures Get(LoadUpTo(q, lo, i, content), j) == if lo <= j < i && j !in q.values then content(j) else Get(q, j)
    decreases i - lo
  {
    if i > lo {
      LoadUpToValue(q, lo, i - 1, content, j);
      LoadUpToValue(q, lo, i - 1, content, i - 1);
    }
  }

  /** Loading the pages lo .. i-1 into a valid cache moves the cached ones to
      the tail in ascending order and leaves every other key in its old
      relative order. */
  lemma {:induction false} LoadUpToKeys<V>(q: CacheQueue<int, V>, lo: int, i: int, content: int -> Option<V>)
    requires Valid(q)
    ensures LoadUpTo(q, lo, i, content).keys == Outside(q.keys, lo, i) + Resident(q, lo, i, content)
    decreases i - lo
  {
    if i <= lo {
      OutsideEmpty(q.keys, lo, i);
    } else {
      var m := i - 1;
      LoadUpToKeys(q, lo, m, content);
      LoadUpToValue(q, lo, m, content, m);
      LoadUpToValid(q, lo, m, content);
      KeysStep(q, lo, m, content, LoadUpTo(q, lo, m, content));
    }
  }

  /** One step of `LoadUpToKeys`: visiting page m moves it (when cached) from
      the untouched part of the key order to the tail. */
  lemma KeysStep<V>(q: CacheQueue<int, V>, lo: int, m: int, content: int -> Option<V>, r0: CacheQueue<int, V>)
    requires Valid(q) && Valid(r0)
    requires lo <= m
    requires r0.keys == Outside(q.keys, lo, m) + Resident(q, lo, m, content)
    requires Get(r0, m) == Get(q, m)
    ensures InsertPage(r0, m, content).keys == Outside(q.keys, lo, m + 1) + Resident(q, lo, m + 1, content)
  {
    var res := Resident(q, lo, m, content);
    InsertPageSpec(r0, m, content);
    if m in q.values || content(m).Some? {
      assert Resident(q, lo, m + 1, content) == res + [m];
      forall x | x in res ensures x < m {
        ResidentMember(q, lo, m, content, x);
      }
      MoveToTail(q.keys, lo, m, res);
    } else {
      assert Resident(q, lo, m + 1, content) == res + [];
      StayPut(q.keys, lo, m);
    }
  }

  /** Erasing page m from the key order and re-appending it. */
  lemma MoveToTail(s: seq<int>, lo: int, m: int, res: seq<int>)
    requires lo <= m
    requires forall x :: x in res ==> x < m
    ensures Erase(Outside(s, lo, m) + res, m) + [m] == Outside(s, lo, m + 1) + (res + [m])
  {
    var o := Outside(s, lo, m);
    OutsideStep(s, lo, m);
    EraseAppend(o, res, m);
    EraseAbsent(res, m);
  }

  /** An absent page m leaves the untouched part of the key order as it was. */
  lemma StayPut(s: seq<int>, lo: int, m: int)
    requires lo <= m
    requires m !in s
    ensures Outside(s, lo, m + 1) == Outside(s, lo, m)
  {
    OutsideStep(s, lo, m);
    OutsideMember(s, lo, m, m);
    EraseAbsent(Outside(s, lo, m), m);
  }

  lemma {:induction false} OutsideEmpty(s: seq<int>, lo: int, hi: int)
    requires hi <= lo
    ensures Outside(s, lo, hi) == s
    decreases |s|
  {
    if |s| > 0 {
      OutsideEmpty(s[1..], lo, hi);
      assert s == [s[0]] + s[1..];
    }
  }

  // ---------------------------------------------------------------------------
  // Properties of lazyLoadPages
  // ---------------------------------------------------------------------------

  /** The window pages that end up cached fit within the effective limit. */
  lemma ResidentFits<V>(q: CacheQueue<int, V>, numberOfPages: nat, pageIndex: int,
                        cachePageLimit: int, content: int -> Option<V>)
    ensures var w := ResidentWindow(pageIndex, numberOfPages);
      |Resident(q, w.lo, w.hi + 1, content)| <= RealCachePageLimit(cachePageLimit, numberOfPages)
  {
  }

  /** When the tail `t` of the key order fits in the limit, eviction pops
      only a prefix of the part `o` before it, and `t` survives as the tail. */
  lemma EvictSparesTail<K(!new), V>(q: CacheQueue<K, V>, limit: int, o: seq<K>, t: seq<K>)
    requires limit >= 0
    requires q.keys == o + t
    requires |t| <= limit
    ensures var d := Overflow(|q.keys|, limit);
      var r := Evict(q, limit);
      && d <= |o|
      && r.1 == o[..d]
      && r.0.keys == o[d..] + t
  {
    EvictDropsOldest(q, limit);
    var d := Overflow(|q.keys|, limit);
    assert q.keys[..d] == o[..d];
    assert q.keys[d..] == o[d..] + t;
  }

  /** Loading [lo, hi) into a valid cache and evicting down to a limit the
      resident pages fit in pops none of those pages: each ends up with the
      content it had, or else the content the data source supplied. */
  lemma WindowPageSurvives<V>(q: CacheQueue<int, V>, lo: int, hi: int, content: int -> Option<V>, limit: int, j: int)
    requires Valid(q)
    requires limit >= 0
    requires lo <= j < hi
    requires |Resident(q, lo, hi, content)| <= limit
    ensures var r := Evict(LoadUpTo(q, lo, hi, content), limit);
      && j !in r.1
      && Get(r.0, j) == if j in q.values then Get(q, j) else content(j)
  {
    var loaded := LoadUpTo(q, lo, hi, content);
    var o := Outside(q.keys, lo, hi);
    var r := Evict(loaded, limit);
    assert j !in r.1 by {
      LoadUpToKeys(q, lo, hi, content);
      EvictSparesTail(loaded, limit, o, Resident(q, lo, hi, content));
      OutsideMember(q.keys, lo, hi, j);
    }
    assert r.0.values == loaded.values - Elements(r.1) by {
      EvictDropsEntries(loaded, limit);
    }
    assert j !in Elements(r.1);
    LoadUpToValue(q, lo, hi, content, j);
  }

  /** A page of the resident window is never evicted, and afterwards holds
      the content it had, or else the content the data source supplied. */
  lemma LazyLoadWindowPage<V>(q: CacheQueue<int, V>, numberOfPages: nat, pageIndex: int,
                              cachePageLimit: int, content: int -> Option<V>, j: int)
    requires Valid(q)
    requires numberOfPages > 0
    requires ResidentWindow(pageIndex, numberOfPages).Contains(j)
    ensures var r := LazyLoadPages(q, numberOfPages, pageIndex, cachePageLimit, content);
      && j !in r.1
      && Get(r.0, j) == if j in q.values then Get(q, j) else content(j)
  {
    var w := ResidentWindow(pageIndex, numberOfPages);
    ResidentFits(q, numberOfPages, pageIndex, cachePageLimit, content);
    WindowPageSurvives(q, w.lo, w.hi + 1, content, RealCachePageLimit(cachePageLimit, numberOfPages), j);
  }

  /** Eviction never removes a page of the resident window. */
  lemma LazyLoadEvictsOutsideWindow<V>(q: CacheQueue<int, V>, numberOfPages: nat, pageIndex: int,
                                       cachePageLimit: int, content: int -> Option<V>)
    requires Valid(q)
    ensures var w := ResidentWindow(pageIndex, numberOfPages);
      forall k :: k in LazyLoadPages(q, numberOfPages, pageIndex, cachePageLimit, content).1 ==> !w.Contains(k)
  {
    var w := ResidentWindow(pageIndex, numberOfPages);
    var r := LazyLoadPages(q, numberOfPages, pageIndex, cachePageLimit, content);
    forall k | k in r.1 ensures !w.Contains(k) {
      if w.Contains(k) {
        LazyLoadWindowPage(q, numberOfPages, pageIndex, cachePageLimit, content, k);
      }
    }
  }

  /** The cached window pages form the tail of the key order, in ascending
      page order. */
  lemma LazyLoadWindowIsTail<V>(q: CacheQueue<int, V>, numberOfPages: nat, pageIndex: int,
                                cachePageLimit: int, content: int -> Option<V>)
    requires Valid(q)
    requires numberOfPages > 0
    ensures var w := ResidentWindow(pageIndex, numberOfPages);
      var r := LazyLoadPages(q, numberOfPages, pageIndex, cachePageLimit, content).0;
      var tail := Resident(q, w.lo, w.hi + 1, content);
      && Ascending(tail)
      && IsSuffix(tail, r.keys)
  {
    var w := ResidentWindow(pageIndex, numberOfPages);
    ResidentFits(q, numberOfPages, pageIndex, cachePageLimit, content);
    ResidentAscending(q, w.lo, w.hi + 1, content);
    TailSurvives(q, w.lo, w.hi + 1, content, RealCachePageLimit(cachePageLimit, numberOfPages));
  }

  /** Loading [lo, hi) into a valid cache and evicting down to a limit the
      resident pages fit in leaves those pages as the tail of the key order. */
  lemma TailSurvives<V>(q: CacheQueue<int, V>, lo: int, hi: int, content: int -> Option<V>, limit: int)
    requires Valid(q)
    requires limit >= 0
    requires |Resident(q, lo, hi, content)| <= limit
    ensures var keys := Evict(LoadUpTo(q, lo, hi, content), limit).0.keys;
      var tail := Resident(q, lo, hi, content);
      IsSuffix(tail, keys)
  {
    var tail := Resident(q, lo, hi, content);
    var loaded := LoadUpTo(q, lo, hi, content);
    LoadUpToKeys(q, lo, hi, content);
    EvictSparesTail(loaded, limit, Outside(q.keys, lo, hi), tail);
    var keys := Evict(loaded, limit).0.keys;
    assert keys[|keys| - |tail|..] == tail;
  }

  /** The tail lists exactly the window pages that are cached afterwards. */
  lemma LazyLoadTailMembers<V>(q: CacheQueue<int, V>, numberOfPages: nat, pageIndex: int,
                               cachePageLimit: int, content: int -> Option<V>)
    requires Valid(q)
    requires numberOfPages > 0
    ensures var w := ResidentWindow(pageIndex, numberOfPages);
      var r := LazyLoadPages(q, numberOfPages, pageIndex, cachePageLimit, content).0;
      forall j :: j in Resident(q, w.lo, w.hi + 1, content) <==> w.Contains(j) && Get(r, j).Some?
  {
    var w := ResidentWindow(pageIndex, numberOfPages);
    var r := LazyLoadPages(q, numberOfPages, pageIndex, cachePageLimit, content).0;
    forall j ensures j in Resident(q, w.lo, w.hi + 1, content) <==> w.Contains(j) && Get(r, j).Some? {
      ResidentMember(q, w.lo, w.hi + 1, content, j);
      if w.Contains(j) {
        LazyLoadWindowPage(q, numberOfPages, pageIndex, cachePageLimit, content, j);
      }
    }
  }

  /** Pages outside the window are never newly inserted, and those that stay
      cached keep their content. */
  lemma LazyLoadAddsOnlyWindowPages<V>(q: CacheQueue<int, V>, numberOfPages: nat, pageIndex: int,
                                       cachePageLimit: int, content: int -> Option<V>, k: int)
    requires !ResidentWindow(pageIndex, numberOfPages).Contains(k)
    ensures var r := LazyLoadPages(q, numberOfPages, pageIndex, cachePageLimit, content).0;
      Get(r, k).Some? ==> Get(r, k) == Get(q, k)
  {
    if numberOfPages > 0 {
      var w := ResidentWindow(pageIndex, numberOfPages);
      var loaded := LoadUpTo(q, w.lo, w.hi + 1, content);
      EvictDropsEntries(loaded, RealCachePageLimit(cachePageLimit, numberOfPages));
      LoadUpToValue(q, w.lo, w.hi + 1, content, k);
    }
  }

  /** Every key left in the order was either there before or is a page of
      the window. */
  lemma LazyLoadKeyOrigin<V>(q: CacheQueue<int, V>, numberOfPages: nat, pageIndex: int,
                             cachePageLimit: int, content: int -> Option<V>, k: int)
    requires Valid(q)
    ensures var r := LazyLoadPages(q, numberOfPages, pageIndex, cachePageLimit, content).0;
      k in r.keys ==> k in q.keys || ResidentWindow(pageIndex, numberOfPages).Contains(k)
  {
    if numberOfPages > 0 {
      var w := ResidentWindow(pageIndex, numberOfPages);
      KeyOrigin(q, w.lo, w.hi + 1, content, RealCachePageLimit(cachePageLimit, numberOfPages), k);
    }
  }

  /** Loading [lo, hi) and evicting adds no key outside [lo, hi). */
  lemma KeyOrigin<V>(q: CacheQueue<int, V>, lo: int, hi: int, content: int -> Option<V>, limit: int, k: int)
    requires Valid(q)
    requires limit >= 0
    ensures k in Evict(LoadUpTo(q, lo, hi, content), limit).0.keys ==> k in q.keys || lo <= k < hi
  {
    var loaded := LoadUpTo(q, lo, hi, content);
    if k in Evict(loaded, limit).0.keys {
      EvictDropsOldest(loaded, limit);
      assert k in loaded.keys;
      LoadUpToKeys(q, lo, hi, content);
      OutsideMember(q.keys, lo, hi, k);
      ResidentMember(q, lo, hi, content, k);
    }
  }

  /** The current page is cached afterwards whenever it was cached before or
      the data source supplies it. */
  lemma LazyLoadKeepsCurrentPage<V>(q: CacheQueue<int, V>, numberOfPages: nat, pageIndex: int,
                                    cachePageLimit: int, content: int -> Option<V>)
    requires Valid(q)
    requires 0 <= pageIndex < numberOfPages
    ensures var r := LazyLoadPages(q, numberOfPages, pageIndex, cachePageLimit, content);
      && pageIndex !in r.1
      && (Get(r.0, pageIndex).Some? <==> pageIndex in q.values || content(pageIndex).Some?)
  {
    LazyLoadWindowPage(q, numberOfPages, pageIndex, cachePageLimit, content, pageIndex);
  }
}

=== FILE: offset_mapping.dfy ===
/**
 The proportional coupling between the tab strip and the content pages
 while one of them is dragged (`scrollViewDidScroll` of
 Sources/ACTabScrollView.swift). Tabs have individual widths, pages are as
 wide as the view; around the current page the tab offset and the content
 offset are related by an affine map whose slope is the view width over
 the current tab's width.
 */
module OffsetMapping {

  /** `widthForTabAtIndex`: the cached tab's width, 0 for a missing tab. */
  function TabWidth(tabWidths: map<int, real>, i: int): (w: real)
    ensures i !in tabWidths ==> w == 0.0
    ensures i in tabWidths ==> w == tabWidths[i]
  {
    if i in tabWidths then tabWidths[i] else 0.0
  }

  /** The width of the tabs before `current`: the left edge of tab
      `current` on the strip, never negative when no tab width is. */
  function TabsWidth(tabWidths: map<int, real>, current: nat): (w: real)
    ensures current == 0 ==> w == 0.0
    ensures (forall j :: 0 <= j < current ==> TabWidth(tabWidths, j) >= 0.0) ==> w >= 0.0
  {
    if current == 0 then 0.0 else TabsWidth(tabWidths, current - 1) + TabWidth(tabWidths, current - 1)
  }

  /** The content offset the source sets while the tab strip is dragged. */
  function ContentFromTab(tabX: real, viewWidth: real, tabWidths: map<int, real>, current: nat): (x: real)
    requires viewWidth > 0.0
    requires TabWidth(tabWidths, current) != 0.0
    ensures TabWidth(tabWidths, current) == viewWidth ==>
      x - current as real * viewWidth == tabX - TabsWidth(tabWidths, current)
  {
    var speed := viewWidth / TabWidth(tabWidths, current);
    var halfWidth := viewWidth / 2.0;
    (tabX + halfWidth - TabsWidth(tabWidths, current)) * speed + current as real * viewWidth - halfWidth
  }

  /** The tab offset the source sets while the content is dragged. */
  function TabFromContent(contentX: real, viewWidth: real, tabWidths: map<int, real>, current: nat): (x: real)
    requires viewWidth > 0.0
    requires TabWidth(tabWidths, current) != 0.0
    ensures TabWidth(tabWidths, current) == viewWidth ==>
      x - TabsWidth(tabWidths, current) == contentX - current as real * viewWidth
  {
    var speed := viewWidth / TabWidth(tabWidths, current);
    var halfWidth := viewWidth / 2.0;
    (contentX + halfWidth - current as real * viewWidth) / speed + TabsWidth(tabWidths, current) - halfWidth
  }

  /** Dragging the content and mirroring onto the tabs, then back, returns
      the content offset. */
  lemma ContentRoundTrip(contentX: real, viewWidth: real, tabWidths: map<int, real>, current: nat)
    requires viewWidth > 0.0
    requires TabWidth(tabWidths, current) != 0.0
    ensures ContentFromTab(TabFromContent(contentX, viewWidth, tabWidths, current), viewWidth, tabWidths, current) == contentX
  {
    var speed := viewWidth / TabWidth(tabWidths, current);
    var d := contentX + viewWidth / 2.0 - current as real * viewWidth;
    assert speed != 0.0;
    assert d / speed * speed == d;
  }

  /** The converse round trip, from the tab strip. */
  lemma TabRoundTrip(tabX: real, viewWidth: real, tabWidths: map<int, real>, current: nat)
    requires viewWidth > 0.0
    requires TabWidth(tabWidths, current) != 0.0
    ensures TabFromContent(ContentFromTab(tabX, viewWidth, tabWidths, current), viewWidth, tabWidths, current) == tabX
  {
    var speed := viewWidth / TabWidth(tabWidths, current);
    var d := tabX + viewWidth / 2.0 - TabsWidth(tabWidths, current);
    assert speed != 0.0;
    assert d * speed / speed == d;
  }
}

=== FILE: page_index.dfy ===
/**
 Resolution of the content scroll offset to a page index
 (`currentPageIndex` of Sources/ACTabScrollView.swift). Every page is as
 wide as the view; the offset is shifted by half a page, divided by the
 page width, converted to an integer by Swift's `Int(CGFloat)` (which
 truncates toward zero) and clamped to the pages that exist.
 */
module PageIndex {

  /** Swift's `Int(_: CGFloat)`: rounds toward zero. */
  function Trunc(r: real): (t: int)
    ensures r >= 0.0 ==> t as real <= r < t as real + 1.0
    ensures r < 0.0 ==> t as real - 1.0 < r <= t as real
  {
    if r >= 0.0 then r.Floor else -((-r).Floor)
  }

  /** The clamp of `currentPageIndex`: below 0 becomes 0, at or past the
      page count becomes the last page. With no pages the second branch
      yields -1, as in the source. */
  function Clamp(raw: int, numberOfPages: nat): (i: int)
    ensures numberOfPages > 0 ==> 0 <= i < numberOfPages
    ensures 0 <= raw < numberOfPages ==> i == raw
  {
    if raw < 0 then 0
    else if raw >= numberOfPages then numberOfPages - 1
    else raw
  }

  /** `currentPageIndex`: the page whose centre band holds `offset`. The
      source divides by the view width; a zero width would trap. */
  function CurrentPageIndex(offset: real, width: real, numberOfPages: nat): (i: int)
    requires width > 0.0
    ensures numberOfPages > 0 ==> 0 <= i < numberOfPages
  {
    Clamp(Trunc((offset + 0.5 * width) / width), numberOfPages)
  }

  /** Reference definition: the nearest page by floor division, clamped. */
  function NearestPage(offset: real, width: real, numberOfPages: nat): int
    requires width > 0.0
    requires numberOfPages > 0
  {
    var raw := ((offset + 0.5 * width) / width).Floor;
    if raw < 0 then 0 else if raw >= numberOfPages then numberOfPages - 1 else raw
  }

  /** Truncation and floor differ only on negative quotients, which the
      clamp sends to page 0 either way. */
  lemma TruncAgreesWithFloor(offset: real, width: real, numberOfPages: nat)
    requires width > 0.0
    requires numberOfPages > 0
    ensures CurrentPageIndex(offset, width, numberOfPages) == NearestPage(offset, width, numberOfPages)
  {
    var r := (offset + 0.5 * width) / width;
    if r < 0.0 {
      assert r.Floor < 0;
    }
  }

  /** Dividing by a positive width preserves and reflects order. */
  lemma DivideOrder(a: real, width: real, c: real)
    requires width > 0.0
    ensures a / width <= c <==> a <= c * width
    ensures a / width < c <==> a < c * width
  {
    var r := a / width;
    assert r * width == a;
    assert (c - r) * width == c * width - a;
  }

  /** Truncation is monotonic. */
  lemma TruncMonotonic(a: real, b: real)
    requires a <= b
    ensures Trunc(a) <= Trunc(b)
  {
  }

  /** An offset within half a page of page i's origin resolves to page i. */
  lemma CentreBandResolves(offset: real, width: real, numberOfPages: nat, i: int)
    requires width > 0.0
    requires 0 <= i < numberOfPages
    requires i as real * width - 0.5 * width <= offset < i as real * width + 0.5 * width
    ensures CurrentPageIndex(offset, width, numberOfPages) == i
  {
    var r := (offset + 0.5 * width) / width;
    DivideOrder(offset + 0.5 * width, width, i as real);
    DivideOrder(offset + 0.5 * width, width, i as real + 1.0);
    assert i as real <= r < i as real + 1.0;
  }

  /** The origin of every page resolves to that page. */
  lemma PageOriginResolves(width: real, numberOfPages: nat, i: int)
    requires width > 0.0
    requires 0 <= i < numberOfPages
    ensures CurrentPageIndex(i as real * width, width, numberOfPages) == i
  {
    CentreBandResolves(i as real * width, width, numberOfPages, i);
  }

  /** Scrolling further right never resolves to an earlier page (with no
      pages the clamps cross, see `NoPages`). */
  lemma Monotonic(x: real, y: real, width: real, numberOfPages: nat)
    requires width > 0.0
    requires numberOfPages > 0
    requires x <= y
    ensures CurrentPageIndex(x, width, numberOfPages) <= CurrentPageIndex(y, width, numberOfPages)
  {
    var a := (x + 0.5 * width) / width;
    var b := (y + 0.5 * width) / width;
    assert b * width == y + 0.5 * width;
    DivideOrder(x + 0.5 * width, width, b);
    TruncMonotonic(a, b);
  }

  /** With no pages the source yields -1, except for offsets at least one
      and a half widths left of the origin, which the lower clamp sends to 0. */
  lemma NoPages(offset: real, width: real)
    requires width > 0.0
    ensures CurrentPageIndex(offset, width, 0) == (if offset <= -1.5 * width then 0 else -1)
  {
    DivideOrder(offset + 0.5 * width, width, -1.0);
  }
}

=== FILE: tab_scroll_view.dfy ===
/**
 The page-change and completion state machine of `ACTabScrollView`
 (Sources/ACTabScrollView.swift). The view's mutable fields become a record,
 every entry point a pure transition returning the next record and the
 outward effects it causes, in the order they occur. The effects are
 delegate notifications, the animated scroll of the content, detached page
 views and completion invocations.
 The data source is a page count and a content function; scroll offsets and
 the view width are parameters.
 */
module TabScrollView {
  import opened Wrappers
  import opened Caches
  import opened LazyLoading
  import opened PageIndex

  /** The two scroll views; `activeScrollView` is nil or one of them. */
  datatype Track = TabStrip | ContentPages

  /** Effects visible outside the view, `C` standing for a completion closure. */
  datatype Event<C> =
    | DidChangePageTo(index: int)       // delegate `didChangePageTo`
    | DidScrollPageTo(index: int)       // delegate `didScrollPageTo`
    | ScrollContentTo(index: int)       // animated `scrollRectToVisible` to the page
    | Detached(pages: seq<int>)         // cached page views removed from the superview
    | Completed(callback: C)            // the pending page-change completion runs

  datatype Pager<V, C> = Pager(
    numberOfPages: nat,
    pagingEnabled: bool,
    cachePageLimit: int,
    defaultPage: int,
    pageIndex: Option<int>,             // `Int!`: unset before the first layout
    prevPageIndex: Option<int>,
    isStarted: bool,
    active: Option<Track>,
    isWaiting: bool,                    // `isWaitingForPageChangedCallback`
    callback: Option<C>,                // `pageChangedCallback`
    cache: CacheQueue<int, V>)          // `cachedPageContents`

  datatype Step<V, C> = Step(pager: Pager<V, C>, events: seq<Event<C>>)

  /** A freshly initialised view. */
  function Initial<V, C>(pagingEnabled: bool, cachePageLimit: int, defaultPage: int): (p: Pager<V, C>)
    ensures p.pageIndex.None? && p.prevPageIndex.None? && !p.isStarted && !p.isWaiting
    ensures Count(p.cache) == 0
  {
    Pager(0, pagingEnabled, cachePageLimit, defaultPage, None, None, false, None, false, None, Empty())
  }

  // ---------------------------------------------------------------------------
  // Transitions
  // ---------------------------------------------------------------------------

  /** `moveToIndex`: an index outside the pages is ignored. Otherwise, with
      paging enabled and no scroll view or the tab strip active, the content
      becomes active and scrolls to the page; the delegate hears about the
      page only when it differs from the last one reported. */
  function MoveTo<V, C>(p: Pager<V, C>, index: int): (s: Step<V, C>)
    ensures !(0 <= index < p.numberOfPages) ==> s == Step(p, [])
    ensures 0 <= index < p.numberOfPages ==> s.pager.prevPageIndex == Some(index)
    ensures s.pager.(active := p.active, prevPageIndex := p.prevPageIndex) == p
  {
    if 0 <= index < p.numberOfPages then
      var scroll := p.pagingEnabled && (p.active.None? || p.active == Some(TabStrip));
      var p1 := if scroll then p.(active := Some(ContentPages)) else p;
      var e1: seq<Event<C>> := if scroll then [ScrollContentTo(index)] else [];
      if p.prevPageIndex != Some(index) then
        Step(p1.(prevPageIndex := Some(index)), e1 + [DidChangePageTo(index)])
      else
        Step(p1, e1)
    else
      Step(p, [])
  }

  /** `changePageToIndex(_:animated:)`, and a tap on a tab
      (`tabViewDidClick`): the tab strip becomes active, then `moveToIndex`. */
  function ChangePage<V, C>(p: Pager<V, C>, index: int): (s: Step<V, C>)
    ensures s.pager.(active := p.active, prevPageIndex := p.prevPageIndex) == p
  {
    MoveTo(p.(active := Some(TabStrip)), index)
  }

  /** `changePageToIndex(_:animated:completion:)`: arms the completion,
      replacing any earlier one, then changes page. */
  function ChangePageWithCompletion<V, C>(p: Pager<V, C>, index: int, completion: C): (s: Step<V, C>)
    ensures s.pager.isWaiting && s.pager.callback == Some(completion)
    ensures s.pager.(active := p.active, prevPageIndex := p.prevPageIndex,
                     isWaiting := p.isWaiting, callback := p.callback) == p
  {
    ChangePage(p.(isWaiting := true, callback := Some(completion)), index)
  }

  /** A tap on the tab strip outside any tab (`tabSectionScrollViewDidClick`)
      re-selects the current page; the source force-unwraps `pageIndex`. */
  function TabStripClick<V, C>(p: Pager<V, C>): (s: Step<V, C>)
    requires p.pageIndex.Some?
    ensures s.pager.(active := p.active, prevPageIndex := p.prevPageIndex) == p
    ensures 0 <= p.pageIndex.value < p.numberOfPages ==> s.pager.prevPageIndex == p.pageIndex
    ensures p.pagingEnabled && 0 <= p.pageIndex.value < p.numberOfPages ==> ScrollContentTo(p.pageIndex.value) in s.events
  {
    ChangePage(p, p.pageIndex.value)
  }

  /** `scrollViewDidEndScrollingAnimation`: a pending completion runs once
      and the flag drops; the closure itself stays stored. */
  function EndScrollingAnimation<V, C>(p: Pager<V, C>): (s: Step<V, C>)
    ensures s.pager == p.(isWaiting := false)
    ensures !p.isWaiting ==> s.events == []
    ensures p.isWaiting ==> s.events == if p.callback.Some? then [Completed(p.callback.value)] else []
  {
    if p.isWaiting then
      var fired: seq<Event<C>> := match p.callback
        case Some(c) => [Completed(c)]
        case None => [];
      Step(p.(isWaiting := false), fired)
    else
      Step(p, [])
  }

  /** `scrollViewWillBeginDragging`: the dragged view becomes active
      (stopping the running scroll is a framework effect, not modelled). */
  function BeginDragging<V, C>(p: Pager<V, C>, dragged: Track): (r: Pager<V, C>)
    ensures r.active == Some(dragged)
    ensures r.(active := p.active) == p
  {
    p.(active := Some(dragged))
  }

  /** `scrollViewDidEndDecelerating`, and `scrollViewDidEndDragging` without
      deceleration: move to the page the content offset resolves to. */
  function Settle<V, C>(p: Pager<V, C>, contentX: real, width: real): (s: Step<V, C>)
    requires width > 0.0
    ensures p.numberOfPages > 0 ==> s.pager.prevPageIndex == Some(CurrentPageIndex(contentX, width, p.numberOfPages))
    ensures s.pager.(active := p.active, prevPageIndex := p.prevPageIndex) == p
  {
    MoveTo(p, CurrentPageIndex(contentX, width, p.numberOfPages))
  }

  /** `scrollViewDidEndDragging`: settles only when no deceleration follows. */
  function EndDragging<V, C>(p: Pager<V, C>, decelerate: bool, contentX: real, width: real): (s: Step<V, C>)
    requires width > 0.0
    ensures decelerate ==> s == Step(p, [])
    ensures s.pager.(active := p.active, prevPageIndex := p.prevPageIndex) == p
  {
    if decelerate then Step(p, []) else Settle(p, contentX, width)
  }

  /** `lazyLoadPages` on the view's state; `pageIndex` is force-unwrapped
      when there are pages. */
  function LoadPages<V, C>(p: Pager<V, C>, content: int -> Option<V>): (s: Step<V, C>)
    requires p.numberOfPages == 0 || p.pageIndex.Some?
    ensures s.pager == p.(cache := s.pager.cache)
    ensures p.numberOfPages > 0 ==> Count(s.pager.cache) <= RealCachePageLimit(p.cachePageLimit, p.numberOfPages)
    ensures |s.events| <= 1 && (|s.events| == 1 ==> s.events[0].Detached?)
  {
    if p.numberOfPages == 0 then Step(p, [])
    else
      var r := LazyLoadPages(p.cache, p.numberOfPages, p.pageIndex.value, p.cachePageLimit, content);
      Step(p.(cache := r.0), if |r.1| > 0 then [Detached(r.1)] else [])
  }

  /** The page-index branch of `scrollViewDidScroll`: once started, a new
      page under the content offset becomes the current page, the window
      around it is loaded and the delegate hears `didScrollPageTo`. The
      offset coupling between the two scroll views is in `OffsetMapping`. */
  function DidScroll<V, C>(p: Pager<V, C>, contentX: real, width: real, content: int -> Option<V>): (s: Step<V, C>)
    requires width > 0.0
    ensures var i := CurrentPageIndex(contentX, width, p.numberOfPages);
      if p.isStarted && p.pageIndex != Some(i) then
        && s.pager.pageIndex == Some(i)
        && |s.events| > 0 && s.events[|s.events| - 1] == DidScrollPageTo(i)
      else s == Step(p, [])
    ensures s.pager.(pageIndex := p.pageIndex, cache := p.cache) == p
    ensures |s.events| <= 2 && (|s.events| == 2 ==> s.events[0].Detached?)
  {
    var i := CurrentPageIndex(contentX, width, p.numberOfPages);
    if p.isStarted && p.pageIndex != Some(i) then
      var loaded := LoadPages(p.(pageIndex := Some(i)), content);
      Step(loaded.pager, loaded.events + [DidScrollPageTo(i)])
    else
      Step(p, [])
  }

  /** `setupPages`: re-reads the page count, clears the page cache and
      removes every cached page view from the content scroll view. */
  function SetupPages<V, C>(p: Pager<V, C>, numberOfPages: nat): (s: Step<V, C>)
    ensures s.pager.numberOfPages == numberOfPages && Count(s.pager.cache) == 0 && Valid(s.pager.cache)
    ensures s.pager.(numberOfPages := p.numberOfPages, cache := p.cache) == p
    ensures |s.events| <= 1
    ensures forall e :: e in s.events ==> e == Detached(p.cache.keys)
    ensures Count(p.cache) > 0 ==> Detached(p.cache.keys) in s.events
  {
    var cleared := p.(numberOfPages := numberOfPages, cache := RemoveAll(p.cache));
    Step(cleared, if |p.cache.keys| > 0 then [Detached(p.cache.keys)] else [])
  }

  /** `layoutSubviews`, before its deferred block: not started. */
  function BeginLayout<V, C>(p: Pager<V, C>): (r: Pager<V, C>)
    ensures !r.isStarted && r.(isStarted := p.isStarted) == p
  {
    p.(isStarted := false)
  }

  /** The deferred block of `layoutSubviews`: set up the pages, start at the
      current page (or the default page the first time), mark the view
      started and load the window. */
  function FinishLayout<V, C>(p: Pager<V, C>, numberOfPages: nat, content: int -> Option<V>): (s: Step<V, C>)
    ensures s.pager.isStarted && s.pager.numberOfPages == numberOfPages
    ensures s.pager.pageIndex == Some(p.pageIndex.GetOr(p.defaultPage))
    ensures s.pager.prevPageIndex == s.pager.pageIndex
    ensures Count(p.cache) > 0 ==> Detached(p.cache.keys) in s.events
    ensures |s.events| <= 2 && forall e :: e in s.events ==> e.Detached?
    ensures numberOfPages > 0 ==> Count(s.pager.cache) <= RealCachePageLimit(p.cachePageLimit, numberOfPages)
  {
    var start := p.pageIndex.GetOr(p.defaultPage);
    var setup := SetupPages(p, numberOfPages);
    var loaded := LoadPages(setup.pager.(pageIndex := Some(start), prevPageIndex := Some(start), isStarted := true), content);
    Step(loaded.pager, setup.events + loaded.events)
  }

  /** `reloadData`: set up the pages again, detaching every cached page
      view, and reload the window. */
  function Reload<V, C>(p: Pager<V, C>, numberOfPages: nat, content: int -> Option<V>): (s: Step<V, C>)
    requires numberOfPages == 0 || p.pageIndex.Some?
    ensures s.pager.numberOfPages == numberOfPages
    ensures s.pager.pageIndex == p.pageIndex && s.pager.prevPageIndex == p.prevPageIndex
    ensures Count(p.cache) > 0 ==> Detached(p.cache.keys) in s.events
    ensures |s.events| <= 2 && forall e :: e in s.events ==> e.Detached?
    ensures numberOfPages > 0 ==> Count(s.pager.cache) <= RealCachePageLimit(p.cachePageLimit, numberOfPages)
  {
    var setup := SetupPages(p, numberOfPages);
    var loaded := LoadPages(setup.pager, content);
    Step(loaded.pager, setup.events + loaded.events)
  }

  // ---------------------------------------------------------------------------
  // Entry points
  // ---------------------------------------------------------------------------

  /** The callbacks and public calls the view reacts to. */
  datatype Input<C> =
    | ChangePageTo(index: int)
    | ChangePageWithCompletionTo(index: int, completion: C)
    | TabTapped(index: int)
    | TabStripTapped
    | DragBegan(dragged: Track)
    | DragEnded(decelerate: bool, contentX: real)
    | DecelerationEnded(contentX: real)
    | AnimationEnded
    | Scrolled(scrolled: Track, contentX: real)  // which view scrolled, and the content offset
    | LayoutBegan
    | LayoutFinished(pageCount: nat)
    | Reloaded(pageCount: nat)
    | CachePageLimitChanged(limit: int)     // the public `cachePageLimit` setter
    | PagingEnabledChanged(enabled: bool)   // the public `pagingEnabled` setter
    | DefaultPageChanged(page: int)         // the public `defaultPage` setter

  /** The inputs the source handles without trapping: a nil `pageIndex` is
      force-unwrapped by a strip tap and by a reload with pages; the loop
      `0 ..< index` of `initWithPageIndex` traps on a negative start page
      when there are pages; and the loop `0 ..< currentIndex` of
      `scrollViewDidScroll` traps when the active view scrolls while the
      resolved index is negative, which happens only with no pages. */
  predicate Enabled<V, C>(p: Pager<V, C>, input: Input<C>, width: real)
    requires width > 0.0
  {
    match input
    case TabStripTapped => p.pageIndex.Some?
    case Reloaded(n) => n == 0 || p.pageIndex.Some?
    case LayoutFinished(n) => n == 0 || p.pageIndex.GetOr(p.defaultPage) >= 0
    case Scrolled(t, x) => p.active != Some(t) || CurrentPageIndex(x, width, p.numberOfPages) >= 0
    case _ => true
  }

  /** Dispatch of one input; `width` is the view width, `content` the data
      source's content views. */
  function Apply<V, C>(p: Pager<V, C>, input: Input<C>, width: real, content: int -> Option<V>): (s: Step<V, C>)
    requires width > 0.0
    requires Enabled(p, input, width)
    ensures s.pager.cachePageLimit == if input.CachePageLimitChanged? then input.limit else p.cachePageLimit
    ensures s.pager.pagingEnabled == if input.PagingEnabledChanged? then input.enabled else p.pagingEnabled
    ensures s.pager.defaultPage == if input.DefaultPageChanged? then input.page else p.defaultPage
    ensures input.CachePageLimitChanged? ==> s == Step(p.(cachePageLimit := input.limit), [])
    ensures input.PagingEnabledChanged? ==> s == Step(p.(pagingEnabled := input.enabled), [])
    ensures input.DefaultPageChanged? ==> s == Step(p.(defaultPage := input.page), [])
  {
    match input
    case ChangePageTo(i) => ChangePage(p, i)
    case ChangePageWithCompletionTo(i, c) => ChangePageWithCompletion(p, i, c)
    case TabTapped(i) => ChangePage(p, i)
    case TabStripTapped => TabStripClick(p)
    case DragBegan(t) => Step(BeginDragging(p, t), [])
    case DragEnded(d, x) => EndDragging(p, d, x, width)
    case DecelerationEnded(x) => Settle(p, x, width)
    case AnimationEnded => EndScrollingAnimation(p)
    case Scrolled(_, x) => DidScroll(p, x, width, content)
    case LayoutBegan => Step(BeginLayout(p), [])
    case LayoutFinished(n) => FinishLayout(p, n, content)
    case Reloaded(n) => Reload(p, n, content)
    case CachePageLimitChanged(limit) => Step(p.(cachePageLimit := limit), [])
    case PagingEnabledChanged(enabled) => Step(p.(pagingEnabled := enabled), [])
    case DefaultPageChanged(page) => Step(p.(defaultPage := page), [])
  }

  // ---------------------------------------------------------------------------
  // Invariant
  // ---------------------------------------------------------------------------

  /** Every cached page exists. */
  ghost predicate PagesInRange<V>(q: CacheQueue<int, V>, numberOfPages: nat) {
    forall k :: k in q.keys ==> 0 <= k < numberOfPages
  }

  /** What every reachable state satisfies: the cache is well formed and
      holds only existing pages, and a started view has a current page. The
      cache fits the effective limit only after a load (`LoadPages`), since
      the `cachePageLimit` setter may lower the limit in between. */
  ghost predicate PagerInv<V, C>(p: Pager<V, C>) {
    && Valid(p.cache)
    && PagesInRange(p.cache, p.numberOfPages)
    && (p.isStarted ==> p.pageIndex.Some?)
  }

  lemma InitialInv<V, C>(pagingEnabled: bool, cachePageLimit: int, defaultPage: int)
    ensures PagerInv(Initial<V, C>(pagingEnabled, cachePageLimit, defaultPage))
  {
  }

  /** Loading the window keeps a well-formed cache of existing pages. */
  lemma LoadPagesInv<V, C>(p: Pager<V, C>, content: int -> Option<V>)
    requires Valid(p.cache) && PagesInRange(p.cache, p.numberOfPages)
    requires p.numberOfPages == 0 || p.pageIndex.Some?
    ensures var r := LoadPages(p, content).pager;
      Valid(r.cache) && PagesInRange(r.cache, r.numberOfPages)
  {
    if p.numberOfPages > 0 {
      var n: nat, i: int := p.numberOfPages, p.pageIndex.value;
      var r := LazyLoadPages(p.cache, n, i, p.cachePageLimit, content).0;
      LazyLoadValid(p.cache, n, i, p.cachePageLimit, content);
      forall k | k in r.keys ensures 0 <= k < n {
        LazyLoadKeyOrigin(p.cache, n, i, p.cachePageLimit, content, k);
        WindowMembers(i, n, k);
      }
    }
  }

  /** With pages, every scroll callback is handled: the trap of the offset
      coupling loop needs a negative resolved index. */
  lemma ScrollTrapNeedsNoPages<V, C>(p: Pager<V, C>, scrolled: Track, contentX: real, width: real)
    requires width > 0.0
    ensures !Enabled(p, Scrolled(scrolled, contentX), width) ==>
      p.numberOfPages == 0 && p.active == Some(scrolled)
  {
  }

  /** Every enabled input keeps the invariant. */
  lemma ApplyInv<V, C>(p: Pager<V, C>, input: Input<C>, width: real, content: int -> Option<V>)
    requires width > 0.0
    requires Enabled(p, input, width)
    requires PagerInv(p)
    ensures PagerInv(Apply(p, input, width, content).pager)
  {
    match input
    case Scrolled(_, x) =>
      var i := CurrentPageIndex(x, width, p.numberOfPages);
      if p.isStarted && p.pageIndex != Some(i) {
        LoadPagesInv(p.(pageIndex := Some(i)), content);
      }
    case LayoutFinished(n) =>
      var start := p.pageIndex.GetOr(p.defaultPage);
      LoadPagesInv(SetupPages(p, n).pager.(pageIndex := Some(start), prevPageIndex := Some(start), isStarted := true), content);
    case Reloaded(n) =>
      LoadPagesInv(SetupPages(p, n).pager, content);
    case _ =>
  }

  // ---------------------------------------------------------------------------
  // Page changes
  // ---------------------------------------------------------------------------

  /** Within range, the delegate hears `didChangePageTo` for the target
      page exactly when it is not the page last reported, and never for any
      other page; the content is scrolled exactly when paging is enabled and
      the content was not already the active view. */
  lemma MoveToEvents<V, C>(p: Pager<V, C>, index: int)
    requires 0 <= index < p.numberOfPages
    ensures var s := MoveTo(p, index);
      && (forall j :: DidChangePageTo(j) in s.events <==> j == index && p.prevPageIndex != Some(index))
      && (forall j :: ScrollContentTo(j) in s.events <==> j == index && p.pagingEnabled && p.active != Some(ContentPages))
      && (forall j :: DidScrollPageTo(j) !in s.events)
  {
    ActiveCases(p.active);
  }

  /** With paging enabled the content ends up as the active view;
      without paging the active view is left alone. */
  lemma MoveToActive<V, C>(p: Pager<V, C>, index: int)
    requires 0 <= index < p.numberOfPages
    ensures p.pagingEnabled ==> MoveTo(p, index).pager.active == Some(ContentPages)
    ensures !p.pagingEnabled ==> MoveTo(p, index).pager.active == p.active
  {
    ActiveCases(p.active);
  }

  /** No scroll view, the tab strip, or the content. */
  lemma ActiveCases(active: Option<Track>)
    ensures active != Some(ContentPages) <==> active.None? || active == Some(TabStrip)
  {
    if active.Some? {
      match active.value
      case TabStrip =>
      case ContentPages =>
    }
  }

  /** Moving to the page just moved to does nothing: repeated moves notify
      the delegate at most once. */
  lemma MoveToIdempotent<V, C>(p: Pager<V, C>, index: int)
    ensures var s := MoveTo(p, index);
      MoveTo(s.pager, index) == Step(s.pager, [])
  {
  }

  /** A programmatic page change to an existing page with paging enabled
      always scrolls the content, since the tab strip is made active first. */
  lemma ChangePageScrolls<V, C>(p: Pager<V, C>, index: int)
    requires 0 <= index < p.numberOfPages
    requires p.pagingEnabled
    ensures ScrollContentTo(index) in ChangePage(p, index).events
  {
  }

  /** After layout the current page counts as reported, so selecting it
      again does not notify the delegate. */
  lemma LayoutReportsStartPage<V, C>(p: Pager<V, C>, numberOfPages: nat, content: int -> Option<V>)
    ensures var s := FinishLayout(p, numberOfPages, content);
      forall j :: DidChangePageTo(j) !in MoveTo(s.pager, s.pager.pageIndex.value).events
  {
  }

  // ---------------------------------------------------------------------------
  // Completions
  // ---------------------------------------------------------------------------

  /** The completion runs at the end of the scrolling animation, once: a
      second end of animation runs nothing. */
  lemma CompletionRunsOnce<V, C>(p: Pager<V, C>, index: int, completion: C)
    ensures var s1 := ChangePageWithCompletion(p, index, completion);
      var s2 := EndScrollingAnimation(s1.pager);
      && s2.events == [Completed(completion)]
      && EndScrollingAnimation(s2.pager).events == []
  {
  }

  /** Scrolling while the change animates leaves the pending completion alone. */
  lemma ScrollKeepsCompletion<V, C>(p: Pager<V, C>, contentX: real, width: real, content: int -> Option<V>)
    requires width > 0.0
    ensures var s := DidScroll(p, contentX, width, content);
      EndScrollingAnimation(s.pager).events == EndScrollingAnimation(p).events
  {
  }

  /** A second completion replaces the first: only the latest one runs. */
  lemma LatestCompletionWins<V, C>(p: Pager<V, C>, i: int, first: C, j: int, second: C)
    ensures var s1 := ChangePageWithCompletion(p, i, first);
      var s2 := ChangePageWithCompletion(s1.pager, j, second);
      EndScrollingAnimation(s2.pager).events == [Completed(second)]
  {
  }

  /** Asking for a page that does not exist starts no scroll and reports
      nothing, yet leaves the completion armed: it runs at the end of the
      next programmatic scroll, whatever page that one goes to. */
  lemma OutOfRangeCompletionStaysArmed<V, C>(p: Pager<V, C>, index: int, completion: C, later: int)
    requires !(0 <= index < p.numberOfPages)
    ensures var s := ChangePageWithCompletion(p, index, completion);
      && s.events == []
      && s.pager.isWaiting
      && EndScrollingAnimation(ChangePage(s.pager, later).pager).events == [Completed(completion)]
  {
  }

  // ---------------------------------------------------------------------------
  // Scrolling
  // ---------------------------------------------------------------------------

  /** A second scroll callback at the same offset does nothing. */
  lemma DidScrollIdempotent<V, C>(p: Pager<V, C>, contentX: real, width: real, content: int -> Option<V>)
    requires width > 0.0
    ensures var s := DidScroll(p, contentX, width, content);
      DidScroll(s.pager, contentX, width, content) == Step(s.pager, [])
  {
  }

  /** When the scroll reaches a new page of a started view, that page is
      cached afterwards exactly when it was cached or the data source
      supplies it, and no evicted view is that page. */
  lemma DidScrollLoadsCurrentPage<V, C>(p: Pager<V, C>, contentX: real, width: real, content: int -> Option<V>)
    requires width > 0.0
    requires PagerInv(p)
    requires p.numberOfPages > 0
    ensures var i := CurrentPageIndex(contentX, width, p.numberOfPages);
      var s := DidScroll(p, contentX, width, content);
      p.isStarted && p.pageIndex != Some(i) ==>
        && (forall e :: e in s.events && e.Detached? ==> i !in e.pages)
        && (Get(s.pager.cache, i).Some? <==> i in p.cache.values || content(i).Some?)
  {
    var i := CurrentPageIndex(contentX, width, p.numberOfPages);
    if p.isStarted && p.pageIndex != Some(i) {
      var r := LazyLoadPages(p.cache, p.numberOfPages, i, p.cachePageLimit, content);
      LazyLoadKeepsCurrentPage(p.cache, p.numberOfPages, i, p.cachePageLimit, content);
      var s := DidScroll(p, contentX, width, content);
      assert s.events == (if |r.1| > 0 then [Detached(r.1)] else []) + [DidScrollPageTo(i)];
    }
  }

  // ---------------------------------------------------------------------------
  // Loading after layout and reload
  // ---------------------------------------------------------------------------

  /** Loading into an empty cache caches only pages that exist. */
  lemma LoadedPageExists<V, C>(p: Pager<V, C>, content: int -> Option<V>, k: int)
    requires Valid(p.cache) && Count(p.cache) == 0
    requires p.numberOfPages == 0 || p.pageIndex.Some?
    ensures Get(LoadPages(p, content).pager.cache, k).Some? ==> 0 <= k < p.numberOfPages
  {
    if p.numberOfPages > 0 {
      var n: nat, i: int := p.numberOfPages, p.pageIndex.value;
      LazyLoadValid(p.cache, n, i, p.cachePageLimit, content);
      LazyLoadKeyOrigin(p.cache, n, i, p.cachePageLimit, content, k);
      WindowMembers(i, n, k);
    }
  }

  /** Loading into an empty cache: the current page is cached afterwards
      exactly when it exists and the data source supplies it. */
  lemma LoadFromEmpty<V, C>(p: Pager<V, C>, content: int -> Option<V>)
    requires Valid(p.cache) && Count(p.cache) == 0
    requires p.pageIndex.Some?
    ensures var i := p.pageIndex.value;
      Get(LoadPages(p, content).pager.cache, i).Some? <==> 0 <= i < p.numberOfPages && content(i).Some?
  {
    var i := p.pageIndex.value;
    if 0 <= i < p.numberOfPages {
      LazyLoadKeepsCurrentPage(p.cache, p.numberOfPages, i, p.cachePageLimit, content);
    } else {
      LoadedPageExists(p, content, i);
    }
  }

  /** After the deferred layout block the start page is cached exactly when
      it exists and the data source supplies it. */
  lemma LayoutLoadsStartPage<V, C>(p: Pager<V, C>, numberOfPages: nat, content: int -> Option<V>)
    ensures var start := p.pageIndex.GetOr(p.defaultPage);
      var cache := FinishLayout(p, numberOfPages, content).pager.cache;
      Get(cache, start).Some? <==> 0 <= start < numberOfPages && content(start).Some?
  {
    var start := p.pageIndex.GetOr(p.defaultPage);
    LoadFromEmpty(SetupPages(p, numberOfPages).pager.(pageIndex := Some(start), prevPageIndex := Some(start), isStarted := true), content);
  }

  /** After `reloadData` the current page is cached exactly when it still
      exists and the data source supplies it. */
  lemma ReloadLoadsCurrentPage<V, C>(p: Pager<V, C>, numberOfPages: nat, content: int -> Option<V>)
    requires p.pageIndex.Some?
    ensures var i := p.pageIndex.value;
      var cache := Reload(p, numberOfPages, content).pager.cache;
      Get(cache, i).Some? <==> 0 <= i < numberOfPages && content(i).Some?
  {
    LoadFromEmpty(SetupPages(p, numberOfPages).pager, content);
  }

  /** A default page past the last page starts the view there, with the
      current page not cached: the current page need not exist. */
  lemma StartPastLastPage<V, C>(content: int -> Option<V>)
    ensures var s := FinishLayout(Initial<V, C>(true, 3, 10), 5, content);
      && s.pager.isStarted && s.pager.numberOfPages == 5
      && s.pager.pageIndex == Some(10)
      && Get(s.pager.cache, 10).None?
  {
    LayoutLoadsStartPage(Initial<V, C>(true, 3, 10), 5, content);
  }

  /** `reloadData` keeps the current page: scrolling to page 7 of 10 and
      reloading to 3 pages leaves a started view on a page that no longer
      exists and is not cached. */
  lemma ReloadToFewerPages<V, C>(p: Pager<V, C>, width: real, content: int -> Option<V>)
    requires width > 0.0
    requires p.isStarted && p.numberOfPages == 10 && p.pageIndex != Some(7)
    ensures var scrolled := DidScroll(p, 7.0 * width, width, content).pager;
      var s := Reload(scrolled, 3, content);
      && s.pager.isStarted && s.pager.numberOfPages == 3
      && s.pager.pageIndex == Some(7)
      && Get(s.pager.cache, 7).None?
  {
    PageOriginResolves(width, 10, 7);
    var scrolled := DidScroll(p, 7.0 * width, width, content).pager;
    assert scrolled.pageIndex == Some(7) && scrolled.isStarted;
    ReloadLoadsCurrentPage(scrolled, 3, content);
  }

  // ---------------------------------------------------------------------------
  // Page-change notifications
  // ---------------------------------------------------------------------------

  /** Every entry point reports `didChangePageTo` only for a page other than
      the last one reported, and records it as reported: consecutive reports
      of the same page never happen. */
  lemma ApplyReportsOnlyNewPages<V, C>(p: Pager<V, C>, input: Input<C>, width: real,
                                      content: int -> Option<V>, j: int)
    requires width > 0.0
    requires Enabled(p, input, width)
    ensures var s := Apply(p, input, width, content);
      DidChangePageTo(j) in s.events ==> p.prevPageIndex != Some(j) && s.pager.prevPageIndex == Some(j)
  {
    match input
    case ChangePageTo(i) =>
      if 0 <= i < p.numberOfPages { MoveToEvents(p.(active := Some(TabStrip)), i); }
    case ChangePageWithCompletionTo(i, c) =>
      if 0 <= i < p.numberOfPages {
        MoveToEvents(p.(isWaiting := true, callback := Some(c), active := Some(TabStrip)), i);
      }
    case TabTapped(i) =>
      if 0 <= i < p.numberOfPages { MoveToEvents(p.(active := Some(TabStrip)), i); }
    case TabStripTapped =>
      var i := p.pageIndex.value;
      if 0 <= i < p.numberOfPages { MoveToEvents(p.(active := Some(TabStrip)), i); }
    case DragEnded(d, x) =>
      var i := CurrentPageIndex(x, width, p.numberOfPages);
      if !d && 0 <= i < p.numberOfPages { MoveToEvents(p, i); }
    case DecelerationEnded(x) =>
      var i := CurrentPageIndex(x, width, p.numberOfPages);
      if 0 <= i < p.numberOfPages { MoveToEvents(p, i); }
    case Scrolled(_, x) =>
      var s := DidScroll(p, x, width, content);
      if |s.events| == 2 {
        assert s.events == [s.events[0], s.events[1]];
      }
    case _ =>
  }
}

=== FILE: wrappers.dfy ===
/** Swift optionals (`T?`) as a Some/None datatype. */
module Wrappers {

  datatype Option<+T> = None | Some(value: T) {

    /** The wrapped value, or `default` for None (Swift's `??`). */
    function GetOr(default: T): T {
      match this
      case Some(v) => v
      case None => default
    }
  }
}
